=== FILE: README.md ===
# Smart Library page rules in Dafny

This project models the decisions made by the page scripts of the Smart Library
school library system. The ledger writes themselves live in manager classes
(`Transaction`, `SemesterManager`, `BookManager`, `PenaltyManager`,
`Authentication`) that are not part of this model. Each page is modelled up to the
call it makes into one of them. What such a call would return is a parameter:
- a lookup map (`loadById`, `getBookById`);
- a count (`getStudentBorrowingCount`);
- a set of loadable ids;
- a `CallResult`, the `['success', 'message', 'errors']` array.

The pages are modelled as follows:

- **Circulation** (`staff/dashboard.php`):
  - the borrow validation ladder and its error order;
  - the return guard;
  - the POST switch;
  - the "(Overdue)" marker;
  - the user and book search dropdowns;
  - `validateBorrowForm`.
- **Penalties** (`staff/penalty_management.php`):
  - the `pay_penalty` and `update_clearance` handlers, as methods of a `PenaltyDesk` class. The class holds the `fines`, `transactions` and `clearances` tables as maps, updates them in place and rolls back on a database error.
  - the total / paid / pending statistics;
  - the Pay-button rule.
- **ClearanceDesk** (`staff/clearance_management.php`):
  - the dispatch of the three actions;
  - the active-books selections, modelled as filter and group-count functions over the transactions table;
  - the lost-books selection, newest first;
  - the "Limit Reached" label;
  - the payment-form prefill.
- **Catalog** (`librarian/dashboard.php`):
  - the add / update / archive / unarchive switch with its required-field guards;
  - the status badge;
  - the Archive/Unarchive row toggle;
  - the price cell.
- **Registration** (`register.php`):
  - `validateForm`;
  - the e-mail regular expression `/^[^\s@]+@[^\s@]+\.[^\s@]+$/`;
  - the re-rendered role select;
  - a `RegisterForm` class for the live form. Its state is the role select, the student-ID field's visibility, `required` flag and value, and the password-confirmation validity. The role and password listeners change that state.
- **Login** (`login.php`): `validateLoginForm`.
- **TeacherFines** (`teacher/fines.php`): the `foreach` that totals the outstanding fines, proved against `Ledger.SumAmounts`, and which parts of the page show.

There are also three shared modules:
- `Php` models `$_POST`, `?? ''`, PHP `empty`, `ucfirst` and the relayed result arrays.
- `Js` models the ECMAScript whitespace set, `trim`, ASCII `toLowerCase`, `includes` and UTF-16 `length`.
- `Ledger` holds the `fines` and `transactions` row types, filtering, and amount sums.

Money is an integer number of centavos. "Now" is an integer parameter. A database exception is an `Option<string>` parameter carrying its message.

## Model

| member | source | states |
|---|---|---|
| Php.Relay | librarian/dashboard.php:31-35 | the notice is a success exactly when the call succeeded; it shows `message` on success, and every failed call shows a failure notice with `errors['general']` |
| Js.Trim | login.php:143-144 | the trimmed text is empty exactly when the input is all ECMAScript whitespace; otherwise it starts and ends with a non-whitespace character |
| Js.Lower | staff/dashboard.php:323-328 | lower-casing keeps the length and maps every character through ASCII lower-casing |
| Js.IncludesIffOccurs | staff/dashboard.php:329 | `includes` holds exactly when the needle occurs at some index of the haystack |
| Js.Utf16Length | register.php:263 | `.length` lies between the number of characters and twice that number |
| Ledger.Filter | staff/penalty_management.php:94 | the filtered list holds each passing row as often as the input does, and no failing row, keeping the input's order |
| Ledger.SumPartition | staff/penalty_management.php:93-95 | the sum over the rows that pass a test plus the sum over those that fail it is the sum over all rows |
| Circulation.BorrowDecision | staff/dashboard.php:31-76 | each error is reported exactly when every earlier check passed and its own check failed; `borrowBook` is called exactly when all checks pass, with the current semester and the account's role; the archived and unavailable errors carry the book's title and status |
| Circulation.BorrowOutcome | staff/dashboard.php:31-76 | a refused request shows that refusal's text; success is shown exactly when `borrowBook` is called and succeeds, with the book title and the borrower's name; a failed call shows the manager's `errors['general']` |
| Circulation.EmptyIdRefusedBeforeLookup | staff/dashboard.php:31-32 | a user or book id of '' or '0' is refused with "Please select both…" whatever the lookups would return |
| Circulation.StudentAtLimitNeverBorrows | staff/dashboard.php:52-56 | a student whose semester count is 3 or more never reaches `borrowBook` |
| Circulation.NonStudentIgnoresCount | staff/dashboard.php:52-76 | for any role but `student` the decision does not depend on the borrowing count |
| Circulation.ReturnDecision | staff/dashboard.php:85-98 | an empty id asks for a selection; an id that does not load is "not found"; `returnBook` is called exactly for a loaded id |
| Circulation.ReturnOutcome | staff/dashboard.php:85-98 | the return branch shows the two refusal texts for those cases, and "Book returned successfully!" exactly when `returnBook` is called and succeeds; a failed call shows the manager's `errors['general']` |
| Circulation.HandlePost | staff/dashboard.php:22-101 | without a POST, or with an action other than `borrow`/`return`, nothing is shown; otherwise the branch's outcome on the posted fields, each '' when absent |
| Circulation.OverdueMarks | staff/dashboard.php:294-298 | one marker per row of the active-loans table, each set exactly when that loan's due date is strictly before now |
| Circulation.MarkersOnlyAccumulate | staff/dashboard.php:296 | a row marked overdue stays marked at every later time, and a loan due exactly at the current time is not marked |
| Php.Ucfirst | librarian/dashboard.php:229 | `ucfirst` keeps the length and everything after the first character; a lower-case ASCII first letter becomes its capital, any other string is unchanged |
| Circulation.UserDropdown | staff/dashboard.php:322-354 | the dropdown shows exactly when the term is non-empty; it then lists each non-placeholder option whose text, student ID or e-mail contains the lower-cased term, and no other |
| Circulation.BookDropdown | staff/dashboard.php:363-397 | the same over text, title, author, ISBN and category |
| Circulation.EmptyEmailsNeverMatch | staff/dashboard.php:105-227 | with every option's e-mail empty, as the users query leaves it, a non-empty term is matched against the option text and the student ID only |
| Circulation.SearchIgnoresCase | staff/dashboard.php:323 | a term and its lower-cased form produce the same dropdown |
| Circulation.ValidateBorrowForm | staff/dashboard.php:411-428 | the form passes exactly when both a user and a book are selected; a missing user is reported before a missing book |
| Circulation.ZeroIdPassesFormButNotHandler | staff/dashboard.php:415 | the id "0" passes the JavaScript check but is refused by the PHP handler |
| Penalties.SettleFine | staff/penalty_management.php:30-32 | the named fine becomes `paid` with the payment time, keeping its amount and transaction; every other fine is unchanged and no row is added |
| Penalties.FlagPenaltyPaid | staff/penalty_management.php:35-40 | only the transaction the fine references gets `penalty_paid` set; nothing else changes |
| Penalties.OverrideClearance | staff/penalty_management.php:59-61 | the row for (user, semester), if it exists, gets the new status, notes and staff id; other rows are unchanged and no row is inserted |
| Penalties.SettleIgnoresPriorStatus | staff/penalty_management.php:30 | paying gives the same result whatever the fine's prior status |
| Penalties.PenaltyDesk.PayPenalty | staff/penalty_management.php:21-49 | no row changes unless the action is `pay_penalty`, the fine id is non-empty and the amount is positive; on an exception both updates are undone and the error text is shown; otherwise both updates apply, so every fine whose id column is the fine id is `paid` at the payment time and every other fine is untouched; clearances never change |
| Penalties.PenaltyDesk.UpdateClearance | staff/penalty_management.php:52-68 | only an `update_clearance` POST with a user id and a status overrides the (user, current semester) clearance, with the acting staff id; fines and transactions never change |
| Penalties.Statistics | staff/penalty_management.php:93-95 | total is the sum of all amounts; paid is the sum over `paid` fines; pending is the sum over all other fines; paid + pending = total |
| Penalties.StatisticsBounded | staff/penalty_management.php:93-95 | with no negative amount, paid and pending each lie between 0 and the total |
| Penalties.WaivedCountsAsPending | staff/penalty_management.php:94-95 | a `waived` fine adds to pending, not to paid |
| Penalties.StatisticsSplice | staff/penalty_management.php:93-95 | the figures of a list with one fine in the middle are the figures of the parts plus that fine's amount, counted as paid only when it is `paid` |
| Penalties.PaymentMovesAmount | staff/penalty_management.php:93-95 | paying a listed fine that is not yet paid moves its amount from pending to paid and keeps the total |
| Penalties.PaidFineLosesPayButton | staff/penalty_management.php:239 | once paid, a fine no longer offers the Pay button |
| ClearanceDesk.Dispatch | staff/clearance_management.php:21-66 | each manager call is made exactly when its action is posted with its required fields non-empty, and with the posted values; a clearance uses the posted semester, or the current one when none was posted |
| ClearanceDesk.ClearanceDefaultsToCurrentSemester | staff/clearance_management.php:27 | without a posted `semester_id` the clearance is processed for the current semester by the acting staff member |
| ClearanceDesk.CallFlash | staff/clearance_management.php:31-35 | a notice appears only after a call whose message is truthy; it is that message, marked success exactly when the call succeeded |
| ClearanceDesk.ActiveBookCount | staff/clearance_management.php:73-85 | the count is zero exactly when the user has no current-semester `borrow` with status exactly `active` |
| ClearanceDesk.LeavingActiveDropsCount | staff/clearance_management.php:80 | an active borrow turning `overdue`, `lost`, `completed` or anything else lowers the count by exactly one |
| ClearanceDesk.ActiveBorrowers | staff/clearance_management.php:73-100 | each listed row is an account of the requested role with its active-book count, which is at least 1; every such account is listed |
| ClearanceDesk.ActiveBorrowersListedOnce | staff/clearance_management.php:81 | with distinct user ids, no user is listed twice |
| ClearanceDesk.StudentLimitLabel | staff/clearance_management.php:252-254 | "Limit Reached" exactly when the count is 3 or more |
| ClearanceDesk.LimitLabelMatchesBorrowCap | staff/clearance_management.php:254 | for an otherwise eligible student, "Within Limit" holds exactly when the circulation desk would call `borrowBook` |
| ClearanceDesk.InsertByDatePermutes | staff/clearance_management.php:110 | placing one transaction into a newest-first list adds that one transaction and keeps every other row |
| ClearanceDesk.NewestFirstOrder | staff/clearance_management.php:110 | the ordering is by transaction date, newest first, and keeps the same rows |
| ClearanceDesk.SelectedLosses | staff/clearance_management.php:103-109 | exactly the joined current-semester `lost` transactions whose book price is unpaid |
| ClearanceDesk.LostBooks | staff/clearance_management.php:103-113 | the list holds exactly those transactions, each as often as in the table, newest first, each with its book's price |
| ClearanceDesk.PrefillIsBookPrice | staff/clearance_management.php:305-343 | each listed row's "Process Payment" opens the payment form on that row's transaction with the price of its book filled in |
| Catalog.CatalogDispatch | librarian/dashboard.php:15-90 | add is called exactly when title and author are non-empty; update exactly when the book id is also non-empty; each otherwise gets its required-fields message; archive and unarchive are called exactly with a non-empty id; the calls carry the posted fields, '' when absent |
| Catalog.CatalogOutcome | librarian/dashboard.php:28-88 | nothing is shown exactly when no call or refusal happened; a refusal shows its text; a call relays the manager's answer |
| Catalog.EmptyIdIsSilent | librarian/dashboard.php:64-88 | archiving or unarchiving with an empty id shows nothing at all |
| Catalog.ZeroTitleIsRefused | librarian/dashboard.php:28-38 | a book titled "0" cannot be added |
| Catalog.StatusBadge | librarian/dashboard.php:223-227 | available is green, borrowed yellow, archived gray, and every other status blue |
| Catalog.BadgeText | librarian/dashboard.php:229 | the badge keeps the status's length and capitalises it: "Available", "Borrowed" and "Archived" under the green, yellow and gray badges |
| Catalog.RowToggleRoundTrip | librarian/dashboard.php:235-247 | a row offers Unarchive exactly when its badge is gray; posting the row's form reaches the matching call for that book |
| Catalog.ShowPrice | librarian/dashboard.php:218 | the price cell is a dash exactly when the price is `NULL` |
| Login.ValidateLoginForm | login.php:142-168 | valid exactly when neither trimmed field is empty; each blank field gets its own error exactly once, independently, and no other error appears; loading exactly when valid |
| Login.BlankFieldsBothReported | login.php:151-161 | whitespace-only username and password are both reported, username first |
| Registration.EmailMatchesPattern | register.php:282 | the decision procedure accepts exactly the strings made of three non-empty groups of non-space, non-'@' characters around an '@' and a '.' |
| Registration.EmailHasOneAtNoSpace | register.php:282 | an accepted address has no whitespace and exactly one '@' |
| Registration.Errors | register.php:260-286 | every check is made; each failing check adds exactly its own error; no error outside the four can appear, and the list is as long as the number of failing checks, so it is empty exactly when no check fails |
| Registration.ValidateForm | register.php:251-293 | all four checks run; each failing check adds its own error, no other error appears, and there is one error per failing check; the form is valid, and loading, exactly when the password has at least 6 UTF-16 units, matches its confirmation, a student has a non-blank student ID, and the e-mail matches |
| Registration.StudentIdIrrelevantForOtherRoles | register.php:275 | for any role but `student` the student ID plays no part in validation |
| Registration.ShortPasswordNeverValid | register.php:263 | a password of fewer than three characters never passes |
| Registration.SelectedRole | register.php:188-190 | a posted role is re-selected only when it is `student` or `teacher` |
| Registration.RenderedPost | register.php:15-24 | after a successful registration the form is rendered from no data; after a failure, from the POST |
| Registration.SuccessClearsForm | register.php:18-21 | after success the form comes back with no role selected and an empty student ID |
| Registration.ConfirmMessage | register.php:328-337 | the confirmation is flagged exactly when it differs from the password |
| Registration.RegisterForm.constructor | register.php:361-370 | on load the posted student ID is filled in, and the field is shown and required exactly when `student` is selected |
| Registration.RegisterForm.ChooseRole | register.php:347-359 | choosing `student` shows and requires the student-ID field and keeps its value; any other role hides it, un-requires it and clears it |
| Registration.RegisterForm.TypeConfirm | register.php:328-337 | typing a confirmation sets its validity to the mismatch message exactly when it differs from the password |
| Registration.RegisterForm.TypePassword | register.php:339-344 | typing a password re-checks a non-empty confirmation |
| Registration.HiddenStudentIdNeverBlocks | register.php:275-278 | in a consistent form, the student-ID error appears exactly when the field is shown and blank |
| TeacherFines.TotalOutstanding | teacher/fines.php:18-21 | the loop's total is the sum of the fines' amounts; after k steps it holds the sum of the first k |
| Ledger.SumNonNegative | teacher/fines.php:18-21 | with no negative amount the total is not negative |
| TeacherFines.TotalIsPendingFigure | teacher/fines.php:15-21 | for pending fines the total equals the staff page's pending figure, and that page's paid figure is 0 |
| TeacherFines.View | teacher/fines.php:60-126 | the counter is the number of fines; the "No outstanding fines!" row shows exactly when there are none; the payment box shows exactly when it does not |
| TeacherFines.PaymentBoxIffOwing | teacher/fines.php:82-145 | with every fine for a positive amount, the payment box shows exactly when the loop's total is positive, and the "No outstanding fines!" row exactly when it is zero |

## Left out

- The manager classes (`Transaction`, `SemesterManager`, `BookManager`, `PenaltyManager`, `Authentication`, `Reservation`) are not part of this model. Their answers are parameters, and their own validation and writes are not modelled.
- Sessions, role gating, redirects, the login POST handler and `$_SESSION['user_id']` are left out. The acting staff id is a parameter.
- HTML rendering, `htmlspecialchars`, `number_format`, date formatting, modals and the DOM building of the dropdowns are left out. Messages are modelled before HTML escaping, except that the archived-book refusal on the staff dashboard escapes the title inside the message as well; the model uses the raw title there.
- The `fetch` calls that list a user's books on the clearance page are network I/O and are not modelled.
- The blur listener that outlines blank required inputs on the registration page is styling only.
- `student/dashboard.php` and `test_data_generator.php` are not part of this model.
- Database transactions, isolation and concurrency are left out. Each handler is one atomic step; a failure is an exception message given as a parameter.
- MySQL's conversion of string ids to numbers in `WHERE id = ?` is not modelled. Ids are compared as strings.
- Penalties.PenaltyDesk.PayPenalty: `amountPaid` is the posted amount already read as a number. PHP 8 compares a non-numeric posted string with `0` as text, so such a string would pass the `> 0` gate; the model does not capture this.
- ClearanceDesk.ActiveBorrowers: rows follow the order of the accounts given, not `ORDER BY first_name, last_name`. Each list's set of rows and their counts are modelled; their order is not.
- The `ORDER BY created_at` of the staff page's fines select is not modelled. The statistics do not depend on the order.
- Js.Lower: only ASCII letters are lower-cased. Unicode case mapping is not modelled.
- Money is integer centavos, not PHP floats. Float rounding is not modelled.
- Circulation.OverdueMarks: due dates are whole seconds. The page reads a DATE column as that day's midnight, so a loan is marked for its whole due day; the model does not tie due dates to calendar days.
- Current time is an integer parameter. `time()` and `strtotime` parsing are not modelled.
- The price and amount strings passed to `markBookAsLost` and `processBookPricePayment` are forwarded unparsed, as the page does.

=== FILE: catalog.dfy ===
/**
 * The librarian's catalogue page (librarian/dashboard.php): the POST switch
 * that adds, updates, archives and unarchives books, and the per-row status
 * badge and Archive/Unarchive toggle of the books table.
 *
 * The writes themselves happen in `BookManager`, which is not part of this
 * model; its result array is passed in as a `CallResult`.
 */
module Catalog {
  import opened Php
  import Ledger

  /** The `$bookData` array built from the POST body. */
  datatype BookData = BookData(title: string, author: string, isbn: string, category: string, price: string)

  /** Each book field is the posted text, or '' when it was not sent. */
  function PostedBook(post: Post): BookData
  {
    BookData(
      Field(post, "title", ""), Field(post, "author", ""), Field(post, "isbn", ""),
      Field(post, "category", ""), Field(post, "price", ""))
  }

  /** What the POST switch decides: nothing, a refusal, or one `BookManager` call. */
  datatype CatalogStep =
    | NoAction
    | Refuse(message: string)
    | CallAdd(data: BookData)
    | CallUpdate(bookId: string, data: BookData)
    | CallArchive(bookId: string)
    | CallUnarchive(bookId: string)

  const AddRequired: string := "Title and Author are required fields."
  const UpdateRequired: string := "Book ID, Title and Author are required fields."

  function Action(post: Post): string
  {
    Field(post, "action", "")
  }

  function BookId(post: Post): string
  {
    Field(post, "book_id", "")
  }

  /** Title and author both present in the PHP `empty` sense. */
  predicate HasTitleAndAuthor(data: BookData)
  {
    !Empty(data.title) && !Empty(data.author)
  }

  /**
   * The POST switch. Add needs a title and an author; update needs a book id
   * as well; archive and unarchive need a book id and otherwise do nothing
   * at all; an unknown action or an empty POST does nothing.
   */
  function CatalogDispatch(post: Post): (r: CatalogStep)
    ensures !Submitted(post) ==> r == NoAction
    ensures r.CallAdd? <==> Submitted(post) && Action(post) == "add_book" && HasTitleAndAuthor(PostedBook(post))
    ensures r == Refuse(AddRequired) <==>
      Submitted(post) && Action(post) == "add_book" && !HasTitleAndAuthor(PostedBook(post))
    ensures r.CallUpdate? <==>
      Submitted(post) && Action(post) == "update_book" && !Empty(BookId(post)) && HasTitleAndAuthor(PostedBook(post))
    ensures r == Refuse(UpdateRequired) <==>
      Submitted(post) && Action(post) == "update_book" && (Empty(BookId(post)) || !HasTitleAndAuthor(PostedBook(post)))
    ensures r.CallArchive? <==> Submitted(post) && Action(post) == "archive_book" && !Empty(BookId(post))
    ensures r.CallUnarchive? <==> Submitted(post) && Action(post) == "unarchive_book" && !Empty(BookId(post))
    ensures r.Refuse? ==> r.message == AddRequired || r.message == UpdateRequired
    ensures r.CallAdd? || r.CallUpdate? ==> r.data == PostedBook(post)
    ensures r.CallUpdate? || r.CallArchive? || r.CallUnarchive? ==> r.bookId == BookId(post)
  {
    if !Submitted(post) then NoAction
    else
      var data := PostedBook(post);
      var id := BookId(post);
      match Action(post)
      case "add_book" => if HasTitleAndAuthor(data) then CallAdd(data) else Refuse(AddRequired)
      case "update_book" =>
        if !Empty(id) && HasTitleAndAuthor(data) then CallUpdate(id, data) else Refuse(UpdateRequired)
      case "archive_book" => if !Empty(id) then CallArchive(id) else NoAction
      case "unarchive_book" => if !Empty(id) then CallUnarchive(id) else NoAction
      case _ => NoAction
  }

  /** The notice after the switch: the refusal text, or the manager's relayed answer. */
  function CatalogOutcome(step: CatalogStep, result: CallResult): (f: Flash)
    ensures step.NoAction? <==> f.NoFlash?
    ensures step.Refuse? ==> f == Failure(step.message)
    ensures !step.NoAction? && !step.Refuse? ==> f == Relay(result)
  {
    match step
    case NoAction => NoFlash
    case Refuse(m) => Failure(m)
    case _ => Relay(result)
  }

  /** An archive or unarchive request for an empty (or "0") id leaves the page silent. */
  lemma EmptyIdIsSilent(post: Post, result: CallResult)
    requires Action(post) == "archive_book" || Action(post) == "unarchive_book"
    requires Empty(BookId(post))
    ensures CatalogOutcome(CatalogDispatch(post), result) == NoFlash
  {
  }

  /** PHP `empty` treats "0" as missing: a book titled "0" cannot be added. */
  lemma ZeroTitleIsRefused(post: Post)
    requires Action(post) == "add_book" && "title" in post && post["title"] == "0"
    ensures CatalogDispatch(post) == Refuse(AddRequired)
  {
  }

  /** The colour of a row's status badge. */
  datatype Badge = Green | Yellow | Gray | Blue

  /** Known statuses get their own colour; any other status falls back to blue. */
  function StatusBadge(status: string): (b: Badge)
    ensures b == Green <==> status == "available"
    ensures b == Yellow <==> status == "borrowed"
    ensures b == Gray <==> status == "archived"
    ensures b == Blue <==> status !in {"available", "borrowed", "archived"}
  {
    if status == "available" then Green
    else if status == "borrowed" then Yellow
    else if status == "archived" then Gray
    else Blue
  }

  /** The badge text: the status with its first letter capitalised. */
  function BadgeText(status: string): (t: string)
    ensures |t| == |status|
    ensures StatusBadge(status) == Green ==> t == "Available"
    ensures StatusBadge(status) == Yellow ==> t == "Borrowed"
    ensures StatusBadge(status) == Gray ==> t == "Archived"
  {
    Ucfirst(status)
  }

  /** The one state-changing button a row offers. */
  datatype RowAction = Archive | Unarchive

  function RowToggle(status: string): RowAction
  {
    if status != "archived" then Archive else Unarchive
  }

  /** The hidden form behind a row's button. */
  function RowForm(bookId: string, action: RowAction): Post
  {
    map["action" := (if action == Archive then "archive_book" else "unarchive_book"), "book_id" := bookId]
  }

  /**
   * A row offers Unarchive exactly when its badge is gray, and submitting the
   * row's form reaches the matching `BookManager` call for that book.
   */
  lemma {:induction false} RowToggleRoundTrip(bookId: string, status: string)
    requires !Empty(bookId)
    ensures RowToggle(status) == Unarchive <==> StatusBadge(status) == Gray
    ensures CatalogDispatch(RowForm(bookId, RowToggle(status)))
         == if status == "archived" then CallUnarchive(bookId) else CallArchive(bookId)
  {
    var post := RowForm(bookId, RowToggle(status));
    assert "action" in post && "book_id" in post;
    assert Submitted(post);
  }

  /** The price column: the peso amount, or a dash for a `NULL` price. */
  datatype PriceCell = Dash | Peso(centavos: int)

  function ShowPrice(price: Ledger.Option<int>): (c: PriceCell)
    ensures c == Dash <==> price.None?
    ensures price.Some? ==> c == Peso(price.value)
  {
    if price.None? then Dash else Peso(price.value)
  }
}

=== FILE: circulation.dfy ===
/**
 * The staff circulation desk (staff/dashboard.php): the borrow and return
 * POST handlers, the overdue marker on the active-borrows table, and the
 * client-side search filters and borrow-form check.
 *
 * The handlers only decide; the ledger writes happen in `Transaction`,
 * `User`, `BookManager` and `SemesterManager`, which are not part of this
 * model. What those classes answer is passed in: the accounts `loadById` can
 * load, the books `getBookById` can find, the count
 * `getStudentBorrowingCount` reports, the transactions `loadById` can load,
 * and the result array of `borrowBook`/`returnBook`.
 */
module Circulation {
  import opened Php
  import opened Js
  import Ledger

  /** The account fields the borrow handler reads after `loadById`. */
  datatype Member = Member(firstName: string, lastName: string, studentId: string, role: string, active: bool)

  /** The book fields the borrow handler reads from `getBookById`. */
  datatype Book = Book(title: string, status: string)

  /** Students may hold this many books per semester. */
  const BorrowLimit: nat := 3

  /** Why a borrow request was turned away, in the order the handler checks. */
  datatype BorrowError =
    | NoSelection
    | UserNotFound
    | UserInactive
    | BookNotFound
    | BookArchived(title: string)
    | BookNotAvailable(title: string, status: string)
    | LimitReached(member: Member, count: nat)

  /** The borrow handler's decision: an error, or the one call to `borrowBook` it makes. */
  datatype BorrowStep =
    | Refuse(error: BorrowError)
    | CallBorrow(userId: string, bookId: string, semesterId: string, role: string)

  /** Both ids were posted and neither is PHP-empty. */
  predicate Selected(userId: string, bookId: string)
  {
    !Empty(userId) && !Empty(bookId)
  }

  /** The user checks pass: ids selected, account found and active. */
  predicate MemberEligible(userId: string, bookId: string, members: map<string, Member>)
  {
    Selected(userId, bookId) && userId in members && members[userId].active
  }

  /** The book checks pass: found and `available`. */
  predicate BookBorrowable(bookId: string, books: map<string, Book>)
  {
    bookId in books && books[bookId].status == "available"
  }

  /**
   * The borrow branch's validation ladder. Each error is reported exactly
   * when every earlier check passed and its own check failed; `borrowBook`
   * is called exactly when all checks pass, with the current semester and
   * the account's role.
   */
  function BorrowDecision(
    userId: string, bookId: string,
    members: map<string, Member>, books: map<string, Book>,
    semesterId: string, borrowCount: nat): (r: BorrowStep)
    ensures r == Refuse(NoSelection) <==> !Selected(userId, bookId)
    ensures r == Refuse(UserNotFound) <==> Selected(userId, bookId) && userId !in members
    ensures r == Refuse(UserInactive) <==>
      Selected(userId, bookId) && userId in members && !members[userId].active
    ensures r == Refuse(BookNotFound) <==> MemberEligible(userId, bookId, members) && bookId !in books
    ensures r.Refuse? && r.error.BookArchived? <==>
      MemberEligible(userId, bookId, members) && bookId in books && books[bookId].status == "archived"
    ensures r.Refuse? && r.error.BookNotAvailable? <==>
      && MemberEligible(userId, bookId, members) && bookId in books
      && books[bookId].status != "archived" && books[bookId].status != "available"
    ensures r.Refuse? && (r.error.BookArchived? || r.error.BookNotAvailable?) ==>
      bookId in books && r.error.title == books[bookId].title
    ensures r.Refuse? && r.error.BookNotAvailable? ==> r.error.status == books[bookId].status
    ensures r.Refuse? && r.error.LimitReached? <==>
      && MemberEligible(userId, bookId, members) && BookBorrowable(bookId, books)
      && members[userId].role == "student" && borrowCount >= BorrowLimit
    ensures r.Refuse? && r.error.LimitReached? ==>
      r.error == LimitReached(members[userId], borrowCount)
    ensures r.CallBorrow? <==>
      && MemberEligible(userId, bookId, members) && BookBorrowable(bookId, books)
      && (members[userId].role != "student" || borrowCount < BorrowLimit)
    ensures r.CallBorrow? ==> r == CallBorrow(userId, bookId, semesterId, members[userId].role)
  {
    if Empty(userId) || Empty(bookId) then Refuse(NoSelection)
    else if userId !in members then Refuse(UserNotFound)
    else if !members[userId].active then Refuse(UserInactive)
    else if bookId !in books then Refuse(BookNotFound)
    else
      var book := books[bookId];
      if book.status == "archived" then Refuse(BookArchived(book.title))
      else if book.status != "available" then Refuse(BookNotAvailable(book.title, book.status))
      else
        var member := members[userId];
        if member.role == "student" then
          if borrowCount >= BorrowLimit then Refuse(LimitReached(member, borrowCount))
          else CallBorrow(userId, bookId, semesterId, member.role)
        else CallBorrow(userId, bookId, semesterId, member.role)
  }

  /** The error text the page shows for each refusal. */
  function RefusalText(e: BorrowError): string
  {
    match e
    case NoSelection => "Please select both a user and a book to borrow."
    case UserNotFound => "User not found. Please select a valid user."
    case UserInactive => "User account is inactive. Cannot borrow books."
    case BookNotFound => "Book not found. Please select a valid book."
    case BookArchived(title) => "Book '" + title + "' is archived and cannot be borrowed."
    case BookNotAvailable(title, status) =>
      "Book '" + title + "' is currently " + Ucfirst(status) + ". Only available books can be borrowed."
    case LimitReached(m, count) =>
      "Student " + m.firstName + " " + m.lastName + " (ID: " + m.studentId
      + ") has reached the maximum borrowing limit (3 books per semester). Current: "
      + NatToString(count) + "/3"
  }

  /**
   * The whole borrow branch: the ladder's error text, or the relayed result
   * of the one `borrowBook` call. `result` is what `borrowBook` would return;
   * it is consulted only when the call is made.
   */
  function BorrowOutcome(
    userId: string, bookId: string,
    members: map<string, Member>, books: map<string, Book>,
    semesterId: string, borrowCount: nat, result: CallResult): (f: Flash)
    ensures f != NoFlash
    ensures !BorrowDecision(userId, bookId, members, books, semesterId, borrowCount).CallBorrow? ==>
      f == Failure(RefusalText(BorrowDecision(userId, bookId, members, books, semesterId, borrowCount).error))
    ensures f.Success? <==>
      BorrowDecision(userId, bookId, members, books, semesterId, borrowCount).CallBorrow? && result.success
    ensures BorrowDecision(userId, bookId, members, books, semesterId, borrowCount).CallBorrow? && !result.success ==>
      f == Failure(result.general)
    ensures f.Success? ==>
      f.text == "Book '" + books[bookId].title + "' borrowed successfully by "
                + members[userId].firstName + " " + members[userId].lastName + "!"
  {
    match BorrowDecision(userId, bookId, members, books, semesterId, borrowCount)
    case Refuse(e) => Failure(RefusalText(e))
    case CallBorrow(_, _, _, _) =>
      if result.success then
        Success("Book '" + books[bookId].title + "' borrowed successfully by "
                + members[userId].firstName + " " + members[userId].lastName + "!")
      else Failure(result.general)
  }

  /** A PHP-empty id is refused before any account or book is looked up. */
  lemma EmptyIdRefusedBeforeLookup(
    userId: string, bookId: string,
    members: map<string, Member>, books: map<string, Book>,
    semesterId: string, borrowCount: nat)
    requires userId == "" || userId == "0" || bookId == "" || bookId == "0"
    ensures BorrowDecision(userId, bookId, members, books, semesterId, borrowCount) == Refuse(NoSelection)
  {
  }

  /** A student at or over the limit never reaches `borrowBook`, whatever the book. */
  lemma StudentAtLimitNeverBorrows(
    userId: string, bookId: string,
    members: map<string, Member>, books: map<string, Book>,
    semesterId: string, borrowCount: nat)
    requires userId in members && members[userId].role == "student" && borrowCount >= BorrowLimit
    ensures !BorrowDecision(userId, bookId, members, books, semesterId, borrowCount).CallBorrow?
  {
  }

  /** For any role but `student` the semester count plays no part in the decision. */
  lemma NonStudentIgnoresCount(
    userId: string, bookId: string,
    members: map<string, Member>, books: map<string, Book>,
    semesterId: string, count1: nat, count2: nat)
    requires userId in members && members[userId].role != "student"
    ensures BorrowDecision(userId, bookId, members, books, semesterId, count1)
         == BorrowDecision(userId, bookId, members, books, semesterId, count2)
  {
  }

  /** The return branch's decision: an error, or the one call to `returnBook`. */
  datatype ReturnStep = NoTransaction | TransactionNotFound | CallReturn(transactionId: string)

  /**
   * The return guard: a PHP-empty id asks for a selection, an id `loadById`
   * cannot load is "not found or already completed", and only a loaded
   * transaction is returned.
   */
  function ReturnDecision(transactionId: string, loadable: set<string>): (r: ReturnStep)
    ensures r == NoTransaction <==> Empty(transactionId)
    ensures r == TransactionNotFound <==> !Empty(transactionId) && transactionId !in loadable
    ensures r.CallReturn? <==> !Empty(transactionId) && transactionId in loadable
    ensures r.CallReturn? ==> r.transactionId == transactionId
  {
    if Empty(transactionId) then NoTransaction
    else if transactionId in loadable then CallReturn(transactionId)
    else TransactionNotFound
  }

  const SelectTransaction: string := "Please select a transaction to return."
  const TransactionMissing: string :=
    "Transaction not found or already completed. Please refresh the page and try again."
  const BookReturned: string := "Book returned successfully!"

  /** The whole return branch, with `result` the array `returnBook` would return. */
  function ReturnOutcome(transactionId: string, loadable: set<string>, result: CallResult): (f: Flash)
    ensures f != NoFlash
    ensures Empty(transactionId) ==> f == Failure(SelectTransaction)
    ensures !Empty(transactionId) && transactionId !in loadable ==>
      f == Failure(TransactionMissing)
    ensures f.Success? <==> ReturnDecision(transactionId, loadable).CallReturn? && result.success
    ensures f.Success? ==> f.text == BookReturned
    ensures ReturnDecision(transactionId, loadable).CallReturn? && !result.success ==> f == Failure(result.general)
  {
    match ReturnDecision(transactionId, loadable)
    case NoTransaction => Failure(SelectTransaction)
    case TransactionNotFound =>
      Failure(TransactionMissing)
    case CallReturn(_) =>
      if result.success then Success(BookReturned) else Failure(result.general)
  }

  /**
   * The POST handler (`if ($_POST) switch ($action)`): `borrow` and `return`
   * read their fields with `?? ''`; any other action, or no POST, shows nothing.
   */
  function HandlePost(
    post: Post, members: map<string, Member>, books: map<string, Book>,
    semesterId: string, borrowCount: nat, loadable: set<string>,
    borrowResult: CallResult, returnResult: CallResult): (f: Flash)
    ensures !Submitted(post) ==> f == NoFlash
    ensures f != NoFlash <==> Submitted(post) && Field(post, "action", "") in {"borrow", "return"}
    ensures Submitted(post) && Field(post, "action", "") == "borrow" ==>
      f == BorrowOutcome(Field(post, "user_id", ""), Field(post, "book_id", ""),
                         members, books, semesterId, borrowCount, borrowResult)
    ensures Submitted(post) && Field(post, "action", "") == "return" ==>
      f == ReturnOutcome(Field(post, "transaction_id", ""), loadable, returnResult)
  {
    if !Submitted(post) then NoFlash
    else
      var action := Field(post, "action", "");
      if action == "borrow" then
        BorrowOutcome(Field(post, "user_id", ""), Field(post, "book_id", ""),
                      members, books, semesterId, borrowCount, borrowResult)
      else if action == "return" then
        ReturnOutcome(Field(post, "transaction_id", ""), loadable, returnResult)
      else NoFlash
  }

  /** The "(Overdue)" marker: the due date is strictly before now. */
  predicate IsOverdue(dueDate: int, now: int)
  {
    dueDate < now
  }

  /** A row of the active-loans table: the transaction and its due date. */
  datatype LoanRow = LoanRow(transactionId: string, dueDate: int)

  /**
   * The "(Overdue)" markers of the active-loans table, one per row in table
   * order: a row is marked exactly when its due date is strictly before now.
   */
  function OverdueMarks(rows: seq<LoanRow>, now: int): (marks: seq<bool>)
    ensures |marks| == |rows|
    ensures forall k :: 0 <= k < |rows| ==> (marks[k] <==> IsOverdue(rows[k].dueDate, now))
  {
    if rows == [] then []
    else [IsOverdue(rows[0].dueDate, now)] + OverdueMarks(rows[1..], now)
  }

  /**
   * Reloading later never removes a marker: every row marked now is still
   * marked at any later time, and a row due exactly at the time of the
   * reload is not marked. The due date is a calendar day read as its
   * midnight, so in practice a loan is marked for the whole of its due day
   * after 00:00:00.
   */
  lemma MarkersOnlyAccumulate(rows: seq<LoanRow>, now: int, later: int)
    requires now <= later
    ensures forall k :: 0 <= k < |rows| && OverdueMarks(rows, now)[k] ==> OverdueMarks(rows, later)[k]
    ensures forall k :: 0 <= k < |rows| && rows[k].dueDate == later ==> !OverdueMarks(rows, later)[k]
  {
  }

  /** An `<option>` of the user select: value, visible text and its `data-` attributes. */
  datatype UserOption = UserOption(value: string, text: string, studentId: string, email: string)

  /** An `<option>` of the book select. */
  datatype BookOption = BookOption(
    value: string, text: string, title: string, author: string, isbn: string, category: string)

  /** The dropdown under a search box: hidden, or shown listing options. */
  datatype Dropdown<T> = Hidden | Shown(items: seq<T>)

  /** The user filter's test, for an already lower-cased term. */
  predicate UserMatches(o: UserOption, term: string)
  {
    && o.value != ""
    && (Includes(Lower(o.text), term) || Includes(Lower(o.studentId), term) || Includes(Lower(o.email), term))
  }

  /** The book filter's test, for an already lower-cased term. */
  predicate BookMatches(o: BookOption, term: string)
  {
    && o.value != ""
    && (|| Includes(Lower(o.text), term) || Includes(Lower(o.title), term)
        || Includes(Lower(o.author), term) || Includes(Lower(o.isbn), term)
        || Includes(Lower(o.category), term))
  }

  /**
   * The user search box's `input` handler: the dropdown shows exactly when
   * the term is non-empty, and then lists, in select order, every option that
   * is not the placeholder and whose text, student ID or email contains the
   * lower-cased term.
   */
  function UserDropdown(options: seq<UserOption>, input: string): (d: Dropdown<UserOption>)
    ensures d.Shown? <==> |input| > 0
    ensures d.Shown? ==>
      forall o :: multiset(d.items)[o] == (if UserMatches(o, Lower(input)) then multiset(options)[o] else 0)
    ensures d.Shown? ==> Ledger.Subsequence(d.items, options)
  {
    var term := Lower(input);
    var filtered := Ledger.Filter(options, o => UserMatches(o, term));
    if |term| > 0 then Shown(filtered) else Hidden
  }

  /** The book search box's `input` handler, over title, author, ISBN and category too. */
  function BookDropdown(options: seq<BookOption>, input: string): (d: Dropdown<BookOption>)
    ensures d.Shown? <==> |input| > 0
    ensures d.Shown? ==>
      forall o :: multiset(d.items)[o] == (if BookMatches(o, Lower(input)) then multiset(options)[o] else 0)
    ensures d.Shown? ==> Ledger.Subsequence(d.items, options)
  {
    var term := Lower(input);
    var filtered := Ledger.Filter(options, o => BookMatches(o, term));
    if |term| > 0 then Shown(filtered) else Hidden
  }

  /**
   * The users select is filled from a query that fetches no e-mail column,
   * so every option's `data-email` is empty; then a non-empty term is
   * matched against the option text and the student ID only.
   */
  lemma EmptyEmailsNeverMatch(options: seq<UserOption>, input: string)
    requires forall k :: 0 <= k < |options| ==> options[k].email == ""
    ensures UserDropdown(options, input).Shown? ==>
      forall o :: multiset(UserDropdown(options, input).items)[o] ==
        (if o.value != "" && (Includes(Lower(o.text), Lower(input)) || Includes(Lower(o.studentId), Lower(input)))
         then multiset(options)[o] else 0)
  {
    var term := Lower(input);
    if |input| > 0 {
      IncludesIffOccurs("", term);
      assert Lower("") == "";
      forall o | o in options
        ensures UserMatches(o, term) <==>
          o.value != "" && (Includes(Lower(o.text), term) || Includes(Lower(o.studentId), term))
      {
        var k :| 0 <= k < |options| && options[k] == o;
      }
    }
  }

  /** Searching is case-insensitive: an upper-case term finds what its lower-case form finds. */
  lemma {:induction false} SearchIgnoresCase(options: seq<UserOption>, input: string)
    ensures UserDropdown(options, input) == UserDropdown(options, Lower(input))
  {
    LowerIdempotent(input);
  }

  /** What `validateBorrowForm` reports: nothing, or the first missing selection. */
  datatype FormCheck = FormOk | MissingUser | MissingBook

  /** `validateBorrowForm`: a user must be selected, then a book; the user is reported first. */
  function ValidateBorrowForm(userValue: string, bookValue: string): (r: FormCheck)
    ensures r == FormOk <==> userValue != "" && bookValue != ""
    ensures r == MissingUser <==> userValue == ""
    ensures r == MissingBook <==> userValue != "" && bookValue == ""
  {
    if userValue == "" then MissingUser
    else if bookValue == "" then MissingBook
    else FormOk
  }

  /**
   * The client check and the server check differ on the id "0": JavaScript
   * treats it as selected, PHP's `empty` does not.
   */
  lemma ZeroIdPassesFormButNotHandler(
    bookId: string, members: map<string, Member>, books: map<string, Book>,
    semesterId: string, borrowCount: nat)
    requires bookId != ""
    ensures ValidateBorrowForm("0", bookId) == FormOk
    ensures BorrowDecision("0", bookId, members, books, semesterId, borrowCount) == Refuse(NoSelection)
  {
  }
}

=== FILE: clearance.dfy ===
/**
 * The staff clearance page (staff/clearance_management.php): the dispatch of
 * its three actions to `SemesterManager` (not part of this model), the
 * selects that list users with active books and lost books awaiting
 * payment, the "Limit Reached" label and the payment form's pre-filled price.
 *
 * The selects are modelled as functions over the `transactions` table given
 * as a list of rows; the joined `users` and `books` tables are given as the
 * accounts and the book prices they hold.
 */
module ClearanceDesk {
  import opened Php
  import opened Ledger
  import Circulation

  /** The one `SemesterManager` call a POST leads to, with its arguments. */
  datatype ClearanceCall =
    | NoCall
    | ProcessClearance(userId: string, semesterId: string, approverId: string)
    | MarkBookLost(transactionId: string, bookPrice: string)
    | ProcessBookPayment(transactionId: string, amountPaid: string)

  function Action(post: Post): string
  {
    if Submitted(post) then Field(post, "action", "") else ""
  }

  /**
   * The POST dispatch. `process_clearance` needs a non-empty user id and
   * takes the posted semester, or the current one when none was posted;
   * `mark_book_lost` needs a transaction id and a price; `process_book_payment`
   * needs a transaction id and an amount. Anything else calls nothing.
   */
  function Dispatch(post: Post, currentSemester: string, staffId: string): (c: ClearanceCall)
    ensures c.ProcessClearance? <==>
      Action(post) == "process_clearance" && !Empty(Field(post, "user_id", ""))
    ensures c.ProcessClearance? ==>
      && c.userId == post["user_id"] && c.approverId == staffId
      && (c.semesterId == if "semester_id" in post then post["semester_id"] else currentSemester)
    ensures c.MarkBookLost? <==>
      && Action(post) == "mark_book_lost"
      && !Empty(Field(post, "transaction_id", "")) && !Empty(Field(post, "book_price", ""))
    ensures c.MarkBookLost? ==> c == MarkBookLost(post["transaction_id"], post["book_price"])
    ensures c.ProcessBookPayment? <==>
      && Action(post) == "process_book_payment"
      && !Empty(Field(post, "transaction_id", "")) && !Empty(Field(post, "amount_paid", ""))
    ensures c.ProcessBookPayment? ==> c == ProcessBookPayment(post["transaction_id"], post["amount_paid"])
  {
    var action := Action(post);
    if action == "process_clearance" then
      var userId := Field(post, "user_id", "");
      var semesterId := Field(post, "semester_id", currentSemester);
      if !Empty(userId) then ProcessClearance(userId, semesterId, staffId) else NoCall
    else if action == "mark_book_lost" then
      var transactionId, bookPrice := Field(post, "transaction_id", ""), Field(post, "book_price", "");
      if !Empty(transactionId) && !Empty(bookPrice) then MarkBookLost(transactionId, bookPrice) else NoCall
    else if action == "process_book_payment" then
      var transactionId, amountPaid := Field(post, "transaction_id", ""), Field(post, "amount_paid", "");
      if !Empty(transactionId) && !Empty(amountPaid) then ProcessBookPayment(transactionId, amountPaid) else NoCall
    else NoCall
  }

  /** Without a posted `semester_id` the clearance is processed for the current semester. */
  lemma ClearanceDefaultsToCurrentSemester(post: Post, currentSemester: string, staffId: string)
    requires Action(post) == "process_clearance" && "user_id" in post && !Empty(post["user_id"])
    requires "semester_id" !in post
    ensures Dispatch(post, currentSemester, staffId) == ProcessClearance(post["user_id"], currentSemester, staffId)
  {
  }

  /**
   * The page's notice after a call: unlike the other pages it shows the
   * result's `message` in both cases, as a success or as an error, and only
   * when that message is truthy (neither "" nor "0").
   */
  function CallFlash(c: ClearanceCall, result: CallResult): (f: Flash)
    ensures f == NoFlash <==> c == NoCall || Empty(result.message)
    ensures f != NoFlash ==> f.text == result.message && (f.Success? <==> result.success)
  {
    if c == NoCall || Empty(result.message) then NoFlash
    else if result.success then Success(result.message) else Failure(result.message)
  }

  /** A row the active-books selects count: this user, this semester, a `borrow` whose status is exactly `active`. */
  predicate IsActiveBorrow(t: Transaction, userId: string, semesterId: string)
  {
    t.userId == userId && t.semesterId == semesterId && t.kind == "borrow" && t.status == "active"
  }

  /** `COUNT(t.id)` for one user in the active-books selects. */
  function ActiveBookCount(transactions: seq<Transaction>, userId: string, semesterId: string): (n: nat)
    ensures n <= |transactions|
    ensures n == 0 <==> forall k :: 0 <= k < |transactions| ==> !IsActiveBorrow(transactions[k], userId, semesterId)
  {
    if transactions == [] then 0
    else
      var rest := ActiveBookCount(transactions[1..], userId, semesterId);
      assert forall k :: 1 <= k < |transactions| ==> transactions[k] == transactions[1..][k - 1];
      (if IsActiveBorrow(transactions[0], userId, semesterId) then 1 else 0) + rest
  }

  /**
   * Only `active` counts: when one of the user's active borrows becomes
   * `overdue`, `lost` or `completed` (any other status), the count drops by
   * exactly one.
   */
  lemma {:induction false} LeavingActiveDropsCount(
    transactions: seq<Transaction>, i: nat, status: string, userId: string, semesterId: string)
    requires i < |transactions| && IsActiveBorrow(transactions[i], userId, semesterId)
    requires status != "active"
    ensures ActiveBookCount(transactions[i := transactions[i].(status := status)], userId, semesterId)
         == ActiveBookCount(transactions, userId, semesterId) - 1
  {
    var changed := transactions[i := transactions[i].(status := status)];
    if i == 0 {
      assert changed[1..] == transactions[1..];
    } else {
      assert changed[1..] == transactions[1..][i - 1 := transactions[i].(status := status)];
      LeavingActiveDropsCount(transactions[1..], i - 1, status, userId, semesterId);
    }
  }

  /** The user fields the active-books selects read. */
  datatype Account = Account(id: string, firstName: string, lastName: string, role: string)

  /** One row of an active-books list. */
  datatype ActiveBorrower = ActiveBorrower(account: Account, count: nat)

  /**
   * The teacher and student active-books lists (`JOIN … WHERE u.role = ? …
   * GROUP BY u.id`): every account of the role with at least one active
   * borrow this semester, once, with its count. Rows follow the order of
   * `accounts`.
   */
  function ActiveBorrowers(accounts: seq<Account>, transactions: seq<Transaction>, semesterId: string, role: string)
    : (rows: seq<ActiveBorrower>)
    ensures forall k :: 0 <= k < |rows| ==>
      && rows[k].account in accounts && rows[k].account.role == role && rows[k].count >= 1
      && rows[k].count == ActiveBookCount(transactions, rows[k].account.id, semesterId)
    ensures forall a :: a in accounts && a.role == role && ActiveBookCount(transactions, a.id, semesterId) >= 1 ==>
      ActiveBorrower(a, ActiveBookCount(transactions, a.id, semesterId)) in rows
  {
    if accounts == [] then []
    else
      var a := accounts[0];
      var rest := ActiveBorrowers(accounts[1..], transactions, semesterId, role);
      var count := ActiveBookCount(transactions, a.id, semesterId);
      assert forall b :: b in accounts <==> b == a || b in accounts[1..] by {
        assert accounts == [a] + accounts[1..];
      }
      if a.role == role && count >= 1 then
        var row := ActiveBorrower(a, count);
        assert forall x :: x in [row] + rest <==> x == row || x in rest;
        [row] + rest
      else rest
  }

  /** The account ids are pairwise distinct (the users table's primary key). */
  ghost predicate DistinctIds(accounts: seq<Account>)
  {
    forall i, j :: 0 <= i < j < |accounts| ==> accounts[i].id != accounts[j].id
  }

  /** No account heads two rows. */
  ghost predicate DistinctRows(rows: seq<ActiveBorrower>)
  {
    forall i, j :: 0 <= i < j < |rows| ==> rows[i].account.id != rows[j].account.id
  }

  /** A row whose user heads no row of a distinct list can go in front of it. */
  lemma ConsDistinctRows(x: ActiveBorrower, rest: seq<ActiveBorrower>)
    requires DistinctRows(rest)
    requires forall k :: 0 <= k < |rest| ==> rest[k].account.id != x.account.id
    ensures DistinctRows([x] + rest)
  {
    var rows := [x] + rest;
    forall i, j | 0 <= i < j < |rows| ensures rows[i].account.id != rows[j].account.id {
      assert rows[j] == rest[j - 1];
      if i > 0 {
        assert rows[i] == rest[i - 1];
      }
    }
  }

  /** With distinct ids, the tail of the accounts and its head share no id. */
  lemma HeadIdNotInTail(accounts: seq<Account>)
    requires accounts != [] && DistinctIds(accounts)
    ensures DistinctIds(accounts[1..])
    ensures forall b :: b in accounts[1..] ==> b.id != accounts[0].id
  {
    var tail := accounts[1..];
    forall i, j | 0 <= i < j < |tail| ensures tail[i].id != tail[j].id {
      assert tail[i] == accounts[i + 1] && tail[j] == accounts[j + 1];
    }
    forall b | b in tail ensures b.id != accounts[0].id {
      var m :| 0 <= m < |tail| && tail[m] == b;
      assert accounts[m + 1] == b;
    }
  }

  /** Each user appears at most once in an active-books list. */
  lemma {:induction false} ActiveBorrowersListedOnce(
    accounts: seq<Account>, transactions: seq<Transaction>, semesterId: string, role: string)
    requires DistinctIds(accounts)
    ensures DistinctRows(ActiveBorrowers(accounts, transactions, semesterId, role))
  {
    if accounts != [] {
      var a, tail := accounts[0], accounts[1..];
      HeadIdNotInTail(accounts);
      var rest := ActiveBorrowers(tail, transactions, semesterId, role);
      ActiveBorrowersListedOnce(tail, transactions, semesterId, role);
      var count := ActiveBookCount(transactions, a.id, semesterId);
      if a.role == role && count >= 1 {
        assert forall k :: 0 <= k < |rest| ==> rest[k].account in tail;
        ConsDistinctRows(ActiveBorrower(a, count), rest);
      }
    }
  }

  /** The status badge on a student's row. */
  datatype LimitLabel = LimitReached | WithinLimit

  /** "Limit Reached" from three active books on, the circulation desk's cap. */
  function StudentLimitLabel(count: nat): (l: LimitLabel)
    ensures l == LimitReached <==> count >= Circulation.BorrowLimit
  {
    if count >= 3 then LimitReached else WithinLimit
  }

  /**
   * The label agrees with the circulation desk's cap: were
   * `getStudentBorrowingCount` to report the same count, an otherwise
   * eligible student labelled "Within Limit" is let through to `borrowBook`
   * and one labelled "Limit Reached" is turned away.
   */
  lemma LimitLabelMatchesBorrowCap(
    userId: string, bookId: string,
    members: map<string, Circulation.Member>, books: map<string, Circulation.Book>,
    semesterId: string, count: nat)
    requires Circulation.MemberEligible(userId, bookId, members) && Circulation.BookBorrowable(bookId, books)
    requires members[userId].role == "student"
    ensures StudentLimitLabel(count) == WithinLimit <==>
      Circulation.BorrowDecision(userId, bookId, members, books, semesterId, count).CallBorrow?
  {
  }

  /** A row of the lost-books list: the transaction and its book's price (`NULL` is `None`). */
  datatype LostBook = LostBook(transaction: Transaction, price: Option<int>)

  /** A current-semester transaction marked `lost` whose book price is not yet paid. */
  predicate IsUnpaidLoss(t: Transaction, semesterId: string)
  {
    t.semesterId == semesterId && t.status == "lost" && !t.bookPricePaid
  }

  /** The row survives the inner joins with `users` and `books`. */
  predicate Joined(t: Transaction, userIds: set<string>, prices: map<string, Option<int>>)
  {
    t.userId in userIds && t.bookId in prices
  }

  ghost predicate NewestFirst(s: seq<Transaction>)
  {
    forall i, j :: 0 <= i < j < |s| ==> s[i].date >= s[j].date
  }

  /** An element no older than the head of a newest-first list can go in front of it. */
  lemma ConsNewestFirst(x: Transaction, s: seq<Transaction>)
    requires NewestFirst(s) && (s != [] ==> x.date >= s[0].date)
    ensures NewestFirst([x] + s)
  {
    var r := [x] + s;
    forall i, j | 0 <= i < j < |r| ensures r[i].date >= r[j].date {
      assert r[j] == s[j - 1];
      if i > 0 {
        assert r[i] == s[i - 1];
      } else if j > 1 {
        assert s[0].date >= s[j - 1].date;
      }
    }
  }

  /** The tail of a newest-first list is newest-first. */
  lemma TailNewestFirst(s: seq<Transaction>)
    requires NewestFirst(s) && s != []
    ensures NewestFirst(s[1..])
  {
    var tail := s[1..];
    forall i, j | 0 <= i < j < |tail| ensures tail[i].date >= tail[j].date {
      assert tail[i] == s[i + 1] && tail[j] == s[j + 1];
    }
  }

  /** Inserts `t` into a newest-first list. */
  function InsertByDate(t: Transaction, s: seq<Transaction>): (r: seq<Transaction>)
    requires NewestFirst(s)
    ensures NewestFirst(r)
    ensures |r| == |s| + 1 && (r[0] == t || (s != [] && r[0] == s[0]))
  {
    if s == [] then [t]
    else if t.date >= s[0].date then
      ConsNewestFirst(t, s);
      [t] + s
    else
      TailNewestFirst(s);
      var tail := InsertByDate(t, s[1..]);
      assert s[1..] != [] ==> s[0].date >= s[1].date;
      ConsNewestFirst(s[0], tail);
      [s[0]] + tail
  }

  /** Inserting adds exactly `t` to the rows. */
  lemma {:induction false} InsertByDatePermutes(t: Transaction, s: seq<Transaction>)
    requires NewestFirst(s)
    ensures multiset(InsertByDate(t, s)) == multiset(s) + multiset{t}
  {
    if s != [] && t.date < s[0].date {
      TailNewestFirst(s);
      InsertByDatePermutes(t, s[1..]);
      assert s == [s[0]] + s[1..];
    }
  }

  /** `ORDER BY t.transaction_date DESC`: a newest-first arrangement of the same rows. */
  function NewestFirstOrder(s: seq<Transaction>): (r: seq<Transaction>)
    ensures NewestFirst(r)
    ensures multiset(r) == multiset(s)
  {
    if s == [] then []
    else
      assert s == [s[0]] + s[1..];
      InsertByDatePermutes(s[0], NewestFirstOrder(s[1..]));
      InsertByDate(s[0], NewestFirstOrder(s[1..]))
  }

  /** Attaches each transaction's book price. */
  function WithPrices(s: seq<Transaction>, prices: map<string, Option<int>>): (rows: seq<LostBook>)
    requires forall k :: 0 <= k < |s| ==> s[k].bookId in prices
    ensures |rows| == |s|
    ensures forall k :: 0 <= k < |s| ==> rows[k] == LostBook(s[k], prices[s[k].bookId])
  {
    if s == [] then [] else [LostBook(s[0], prices[s[0].bookId])] + WithPrices(s[1..], prices)
  }

  /** The transactions of a list of lost-book rows, in order. */
  function TransactionsOf(rows: seq<LostBook>): (s: seq<Transaction>)
    ensures |s| == |rows|
    ensures forall k :: 0 <= k < |rows| ==> s[k] == rows[k].transaction
  {
    if rows == [] then [] else [rows[0].transaction] + TransactionsOf(rows[1..])
  }

  /** The lost-books select's `WHERE` and joins together. */
  predicate IsListedLoss(t: Transaction, semesterId: string, userIds: set<string>, prices: map<string, Option<int>>)
  {
    IsUnpaidLoss(t, semesterId) && Joined(t, userIds, prices)
  }

  /** The rows the lost-books select keeps, before ordering. */
  function SelectedLosses(
    transactions: seq<Transaction>, userIds: set<string>, prices: map<string, Option<int>>, semesterId: string)
    : (r: seq<Transaction>)
    ensures forall k :: 0 <= k < |r| ==> IsListedLoss(r[k], semesterId, userIds, prices)
    ensures forall t ::
      multiset(r)[t] == (if IsListedLoss(t, semesterId, userIds, prices) then multiset(transactions)[t] else 0)
  {
    var r := Filter(transactions, t => IsListedLoss(t, semesterId, userIds, prices));
    assert forall k :: 0 <= k < |r| ==> r[k] in multiset(r);
    r
  }

  /** Reordering keeps every row listed. */
  lemma OrderedStillListed(
    selected: seq<Transaction>, ordered: seq<Transaction>,
    userIds: set<string>, prices: map<string, Option<int>>, semesterId: string)
    requires forall k :: 0 <= k < |selected| ==> IsListedLoss(selected[k], semesterId, userIds, prices)
    requires multiset(ordered) == multiset(selected)
    ensures forall k :: 0 <= k < |ordered| ==> IsListedLoss(ordered[k], semesterId, userIds, prices)
  {
    forall k | 0 <= k < |ordered| ensures IsListedLoss(ordered[k], semesterId, userIds, prices) {
      assert ordered[k] in multiset(selected);
      var j :| 0 <= j < |selected| && selected[j] == ordered[k];
    }
  }

  /** Attaching prices and reading the transactions back gives the same list. */
  lemma {:induction false} TransactionsOfWithPrices(s: seq<Transaction>, prices: map<string, Option<int>>)
    requires forall k :: 0 <= k < |s| ==> s[k].bookId in prices
    ensures TransactionsOf(WithPrices(s, prices)) == s
  {
    var rows := WithPrices(s, prices);
    assert forall k :: 0 <= k < |s| ==> TransactionsOf(rows)[k] == s[k];
  }

  /**
   * The lost-books list: exactly the joined current-semester transactions
   * that are `lost` with the book price unpaid, newest first, each with its
   * book's price.
   */
  function LostBooks(
    transactions: seq<Transaction>, userIds: set<string>, prices: map<string, Option<int>>, semesterId: string)
    : (rows: seq<LostBook>)
    ensures forall k :: 0 <= k < |rows| ==>
      && IsListedLoss(rows[k].transaction, semesterId, userIds, prices)
      && rows[k].price == prices[rows[k].transaction.bookId]
    ensures forall i, j :: 0 <= i < j < |rows| ==> rows[i].transaction.date >= rows[j].transaction.date
    ensures forall t ::
      (multiset(TransactionsOf(rows))[t] ==
       if IsListedLoss(t, semesterId, userIds, prices) then multiset(transactions)[t] else 0)
  {
    var selected := SelectedLosses(transactions, userIds, prices, semesterId);
    var ordered := NewestFirstOrder(selected);
    OrderedStillListed(selected, ordered, userIds, prices, semesterId);
    TransactionsOfWithPrices(ordered, prices);
    WithPrices(ordered, prices)
  }

  /** What the "Process Payment" button puts in the payment form: the transaction and an amount. */
  datatype PaymentForm = PaymentForm(transactionId: string, amount: Option<int>)

  function Prefill(row: LostBook): PaymentForm
  {
    PaymentForm(row.transaction.id, row.price)
  }

  /** The payment form opens on the row's transaction with its book's price filled in. */
  lemma PrefillIsBookPrice(
    transactions: seq<Transaction>, userIds: set<string>, prices: map<string, Option<int>>,
    semesterId: string, k: nat)
    requires k < |LostBooks(transactions, userIds, prices, semesterId)|
    ensures var row := LostBooks(transactions, userIds, prices, semesterId)[k];
      Prefill(row) == PaymentForm(row.transaction.id, prices[row.transaction.bookId])
  {
  }
}

=== FILE: js.dfy ===
/**
 * The JavaScript string operations the pages' client-side scripts rely on:
 * `String.prototype.trim`, `toLowerCase`, `includes`, the regular-expression
 * class `\s`, and `length` (counted in UTF-16 code units).
 */
module Js {

  /**
   * The characters ECMAScript counts as WhiteSpace or LineTerminator: the set
   * `trim` strips and the regular-expression class `\s` matches.
   */
  predicate IsWhitespace(c: char)
  {
    || c == '\t' || c == '\n' || c == '\U{000B}' || c == '\U{000C}' || c == '\r' || c == ' '
    || c == '\U{00A0}' || c == '\U{1680}'
    || ('\U{2000}' <= c <= '\U{200A}')
    || c == '\U{2028}' || c == '\U{2029}' || c == '\U{202F}' || c == '\U{205F}'
    || c == '\U{3000}' || c == '\U{FEFF}'
  }

  /** Every character of `s` is whitespace (the empty string included). */
  ghost predicate Blank(s: string)
  {
    forall k :: 0 <= k < |s| ==> IsWhitespace(s[k])
  }

  /** Number of leading whitespace characters of `s`. */
  function LeadingSpace(s: string): (n: nat)
    ensures n <= |s|
    ensures Blank(s[..n])
    ensures n < |s| ==> !IsWhitespace(s[n])
  {
    if s == [] || !IsWhitespace(s[0]) then 0
    else
      var m := LeadingSpace(s[1..]);
      assert s[1..][..m] == s[1..m + 1];
      1 + m
  }

  /** Number of trailing whitespace characters of `s`. */
  function TrailingSpace(s: string): (n: nat)
    ensures n <= |s|
    ensures Blank(s[|s| - n..])
    ensures n < |s| ==> !IsWhitespace(s[|s| - n - 1])
  {
    if s == [] || !IsWhitespace(s[|s| - 1]) then 0
    else
      var m := TrailingSpace(s[..|s| - 1]);
      assert s[..|s| - 1][|s| - 1 - m..] == s[|s| - 1 - m..|s| - 1];
      1 + m
  }

  /**
   * `s.trim()`: `s` without its leading and trailing whitespace. The result
   * is empty exactly for a blank `s`, and a non-empty result starts and ends
   * with a non-whitespace character.
   */
  function Trim(s: string): (r: string)
    ensures |r| <= |s|
    ensures r == "" <==> Blank(s)
    ensures r != "" ==> !IsWhitespace(r[0]) && !IsWhitespace(r[|r| - 1])
  {
    var i := LeadingSpace(s);
    var rest := s[i..];
    var j := TrailingSpace(rest);
    TrimCut(s, i, j);
    rest[..|rest| - j]
  }

  /** The facts `Trim` promises, about the cut it makes after `i` leading and `j` trailing blanks. */
  lemma TrimCut(s: string, i: nat, j: nat)
    requires i == LeadingSpace(s) && j == TrailingSpace(s[i..])
    ensures s[i..][..|s| - i - j] == "" <==> Blank(s)
    ensures var r := s[i..][..|s| - i - j];
      r != "" ==> !IsWhitespace(r[0]) && !IsWhitespace(r[|r| - 1])
  {
    var rest := s[i..];
    var r := rest[..|rest| - j];
    if r == "" {
      assert rest[|rest| - j..] == rest;
      BlankConcat(s[..i], rest);
      assert s[..i] + rest == s;
    } else {
      assert r[0] == rest[0] == s[i];
      assert r[|r| - 1] == rest[|rest| - j - 1];
    }
  }

  lemma BlankConcat(a: string, b: string)
    requires Blank(a) && Blank(b)
    ensures Blank(a + b)
  {
    forall k | 0 <= k < |a + b| ensures IsWhitespace((a + b)[k]) {
      if k < |a| { assert (a + b)[k] == a[k]; } else { assert (a + b)[k] == b[k - |a|]; }
    }
  }

  /** ASCII case folding of one character, as `toLowerCase` does for 'A'..'Z'. */
  function LowerChar(c: char): char
  {
    if 'A' <= c <= 'Z' then (c as int + 32) as char else c
  }

  /** `s.toLowerCase()`, restricted to ASCII letters. */
  function Lower(s: string): (r: string)
    ensures |r| == |s|
    ensures forall k :: 0 <= k < |s| ==> r[k] == LowerChar(s[k])
  {
    if s == [] then [] else [LowerChar(s[0])] + Lower(s[1..])
  }

  /** Lower-casing twice is lower-casing once. */
  lemma LowerIdempotent(s: string)
    ensures Lower(Lower(s)) == Lower(s)
  {
  }

  /** `needle` occurs in `hay` starting at index `i`. */
  ghost predicate OccursAt(hay: string, needle: string, i: int)
  {
    0 <= i <= |hay| - |needle| && hay[i..i + |needle|] == needle
  }

  /** `hay.includes(needle)`. */
  function Includes(hay: string, needle: string): bool
    decreases |hay|
  {
    if |needle| > |hay| then false
    else hay[..|needle|] == needle || Includes(hay[1..], needle)
  }

  /** `includes` holds exactly when the needle occurs at some position of the haystack. */
  lemma {:induction false} IncludesIffOccurs(hay: string, needle: string)
    ensures Includes(hay, needle) <==> exists i :: OccursAt(hay, needle, i)
    decreases |hay|
  {
    if |needle| > |hay| {
    } else if hay[..|needle|] == needle {
      assert OccursAt(hay, needle, 0);
    } else {
      IncludesIffOccurs(hay[1..], needle);
      if Includes(hay[1..], needle) {
        var i :| OccursAt(hay[1..], needle, i);
        assert hay[1..][i..i + |needle|] == hay[i + 1..i + 1 + |needle|];
        assert OccursAt(hay, needle, i + 1);
      }
      if exists i :: OccursAt(hay, needle, i) {
        var i :| OccursAt(hay, needle, i);
        assert i != 0;
        assert hay[1..][i - 1..i - 1 + |needle|] == hay[i..i + |needle|];
        assert OccursAt(hay[1..], needle, i - 1);
      }
    }
  }

  /** Every string includes the empty string. */
  lemma {:induction false} IncludesEmpty(hay: string)
    ensures Includes(hay, "")
  {
    assert OccursAt(hay, "", 0);
    IncludesIffOccurs(hay, "");
  }

  /** `s.length`: characters outside the Basic Multilingual Plane count twice (surrogate pairs). */
  function Utf16Length(s: string): (n: nat)
    ensures |s| <= n <= 2 * |s|
  {
    if s == [] then 0
    else (if s[0] as int > 0xFFFF then 2 else 1) + Utf16Length(s[1..])
  }
}

=== FILE: ledger.dfy ===
/**
 * The rows of the library's ledger tables as the page scripts read them, and
 * the two list operations they apply to query results: filtering
 * (`array_filter`, SQL `WHERE`) and summing amounts (`array_sum`, a
 * `foreach` accumulator). Money is an integer number of centavos.
 */
module Ledger {

  datatype Option<T> = None | Some(value: T)

  /** A row of the `fines` table. `status` is "pending", "paid" or "waived". */
  datatype Fine = Fine(
    id: string,
    userId: string,
    transactionId: string,
    amount: int,
    reason: string,
    status: string,
    paidAt: Option<int>)

  /**
   * A row of the `transactions` table. `kind` is the `transaction_type`
   * column ("borrow", "return", "lost"); `status` is "active", "completed",
   * "overdue" or "lost".
   */
  datatype Transaction = Transaction(
    id: string,
    userId: string,
    bookId: string,
    semesterId: string,
    kind: string,
    status: string,
    date: int,
    dueDate: int,
    penaltyPaid: bool,
    bookPricePaid: bool)

  /** `r` is `s` with some elements dropped and the rest kept in their order. */
  ghost predicate Subsequence<T>(r: seq<T>, s: seq<T>)
    decreases |s|
  {
    if r == [] then true
    else if s == [] then false
    else (r[0] == s[0] && Subsequence(r[1..], s[1..])) || Subsequence(r, s[1..])
  }

  /** The elements of `s` that satisfy `p`, in their original order. */
  function Filter<T(!new)>(s: seq<T>, p: T -> bool): (r: seq<T>)
    ensures |r| <= |s|
    ensures Subsequence(r, s)
    ensures forall x :: multiset(r)[x] == if p(x) then multiset(s)[x] else 0
  {
    if s == [] then []
    else
      var tail := Filter(s[1..], p);
      assert s == [s[0]] + s[1..];
      if p(s[0]) then [s[0]] + tail else tail
  }

  /** Filtering distributes over concatenation. */
  lemma {:induction false} FilterAppend<T(!new)>(a: seq<T>, b: seq<T>, p: T -> bool)
    ensures Filter(a + b, p) == Filter(a, p) + Filter(b, p)
  {
    if a == [] {
      assert a + b == b;
    } else {
      assert (a + b)[1..] == a[1..] + b;
      FilterAppend(a[1..], b, p);
    }
  }

  /** Filtering a one-row list keeps the row exactly when it passes. */
  lemma FilterSingle<T(!new)>(x: T, p: T -> bool)
    ensures Filter([x], p) == if p(x) then [x] else []
  {
    assert [x][1..] == [];
  }

  /** Sum of the `amount` column, accumulated from the first row to the last. */
  function SumAmounts(fines: seq<Fine>): int
  {
    if fines == [] then 0 else SumAmounts(fines[..|fines| - 1]) + fines[|fines| - 1].amount
  }

  /** The sum of a concatenation is the sum of the parts. */
  lemma {:induction false} SumAppend(a: seq<Fine>, b: seq<Fine>)
    ensures SumAmounts(a + b) == SumAmounts(a) + SumAmounts(b)
    decreases |b|
  {
    if b == [] {
      assert a + b == a;
    } else {
      assert (a + b)[..|a + b| - 1] == a + b[..|b| - 1];
      SumAppend(a, b[..|b| - 1]);
    }
  }

  /** With no negative amount the sum is not negative. */
  lemma {:induction false} SumNonNegative(fines: seq<Fine>)
    requires forall k :: 0 <= k < |fines| ==> fines[k].amount >= 0
    ensures SumAmounts(fines) >= 0
  {
    if fines != [] {
      SumNonNegative(fines[..|fines| - 1]);
    }
  }

  /**
   * Splitting rows by a test and its negation splits the sum: the rows that
   * pass and the rows that fail add up to the whole.
   */
  lemma {:induction false} SumPartition(fines: seq<Fine>, p: Fine -> bool, q: Fine -> bool)
    requires forall f :: q(f) == !p(f)
    ensures SumAmounts(Filter(fines, p)) + SumAmounts(Filter(fines, q)) == SumAmounts(fines)
    decreases |fines|
  {
    if fines != [] {
      var init, last := fines[..|fines| - 1], fines[|fines| - 1];
      assert fines == init + [last];
      SumPartition(init, p, q);
      FilterAppend(init, [last], p);
      FilterAppend(init, [last], q);
      FilterSingle(last, p);
      FilterSingle(last, q);
      SumAppend(Filter(init, p), Filter([last], p));
      SumAppend(Filter(init, q), Filter([last], q));
      assert [last][..0] == [];
    }
  }
}

=== FILE: login.dfy ===
/**
 * The login page (login.php): the client-side `validateLoginForm` that runs
 * before the form is submitted.
 */
module Login {
  import opened Js

  /** A field that can carry an error under it. */
  datatype LoginField = Username | Password

  /** One error shown under a field. */
  datatype FieldError = FieldError(field: LoginField, message: string)

  const UsernameRequired: string := "Username is required"
  const PasswordRequired: string := "Password is required"

  /**
   * The outcome of one `validateLoginForm` run: the errors shown (earlier
   * ones are always cleared first), the returned flag, and whether the
   * button entered its loading state.
   */
  datatype LoginCheck = LoginCheck(errors: seq<FieldError>, valid: bool, loading: bool)

  /**
   * Both trimmed fields are checked, independently; the form is valid and
   * the button shows its spinner exactly when neither check fails.
   */
  function ValidateLoginForm(username: string, password: string): (c: LoginCheck)
    ensures c.valid <==> !Blank(username) && !Blank(password)
    ensures c.valid <==> c.errors == []
    ensures c.loading == c.valid
    ensures FieldError(Username, UsernameRequired) in c.errors <==> Blank(username)
    ensures FieldError(Password, PasswordRequired) in c.errors <==> Blank(password)
    ensures forall k :: 0 <= k < |c.errors| ==>
      c.errors[k] in [FieldError(Username, UsernameRequired), FieldError(Password, PasswordRequired)]
    ensures |c.errors| == (if Blank(username) then 1 else 0) + (if Blank(password) then 1 else 0)
  {
    var noUser, noPassword := Trim(username) == "", Trim(password) == "";
    var errors :=
      if noUser && noPassword then [FieldError(Username, UsernameRequired), FieldError(Password, PasswordRequired)]
      else if noUser then [FieldError(Username, UsernameRequired)]
      else if noPassword then [FieldError(Password, PasswordRequired)]
      else [];
    LoginCheck(errors, errors == [], errors == [])
  }

  /** A username and a password of spaces, tabs or newlines are both reported, together. */
  lemma BlankFieldsBothReported(username: string, password: string)
    requires Blank(username) && Blank(password)
    ensures ValidateLoginForm(username, password).errors
         == [FieldError(Username, UsernameRequired), FieldError(Password, PasswordRequired)]
  {
  }
}

=== FILE: penalties.dfy ===
/**
 * Fine payment, clearance override and fine statistics
 * (staff/penalty_management.php).
 *
 * The two POST handlers update rows of the `fines`, `transactions` and
 * `clearances` tables in place; `PenaltyDesk` holds those tables as maps
 * keyed by id. A database exception is the `failure` parameter: the text of
 * the exception, or `None` when the statements run. The statistics are
 * computed from the list of fines the page selects.
 */
module Penalties {
  import opened Php
  import opened Ledger

  /** A row of the `clearances` table; the table is keyed by (user_id, semester_id). */
  datatype Clearance = Clearance(status: string, notes: string, clearedBy: string)

  /** The notice after a `pay_penalty` POST. */
  datatype PayReply = PayIgnored | PayRecorded | PayFailed(text: string)

  /** The notice after an `update_clearance` POST. */
  datatype ClearanceReply = ClearanceIgnored | ClearanceUpdated | ClearanceFailed(text: string)

  /** The guard of the payment handler: the action, a non-empty fine id and a positive amount. */
  predicate PaymentAdmitted(action: string, fineId: string, amountPaid: int)
  {
    action == "pay_penalty" && !Empty(fineId) && amountPaid > 0
  }

  /** The guard of the clearance handler: the action, a non-empty user id and status. */
  predicate ClearanceAdmitted(action: string, userId: string, status: string)
  {
    action == "update_clearance" && !Empty(userId) && !Empty(status)
  }

  /**
   * `UPDATE fines SET status = 'paid', paid_at = NOW() WHERE id = ?`: the
   * named fine, whatever its status was, becomes `paid` with the payment
   * time; its amount and every other fine stay as they were; no row is added.
   */
  function SettleFine(fines: map<string, Fine>, fineId: string, now: int): (r: map<string, Fine>)
    ensures r.Keys == fines.Keys
    ensures fineId in fines ==>
      && r[fineId].status == "paid" && r[fineId].paidAt == Some(now)
      && r[fineId].amount == fines[fineId].amount
      && r[fineId].transactionId == fines[fineId].transactionId
      && r[fineId].id == fines[fineId].id
    ensures forall id :: id in fines && id != fineId ==> r[id] == fines[id]
  {
    if fineId in fines then fines[fineId := fines[fineId].(status := "paid", paidAt := Some(now))]
    else fines
  }

  /**
   * `UPDATE transactions t JOIN fines f ON t.id = f.transaction_id SET
   * t.penalty_paid = TRUE WHERE f.id = ?`: the transaction the fine points
   * at, if both exist, gets its penalty flag set; nothing else changes.
   */
  function FlagPenaltyPaid(transactions: map<string, Transaction>, fines: map<string, Fine>, fineId: string)
    : (r: map<string, Transaction>)
    ensures r.Keys == transactions.Keys
    ensures fineId in fines && fines[fineId].transactionId in transactions ==>
      r[fines[fineId].transactionId] == transactions[fines[fineId].transactionId].(penaltyPaid := true)
    ensures forall id :: id in transactions && !(fineId in fines && id == fines[fineId].transactionId) ==>
      r[id] == transactions[id]
  {
    if fineId in fines && fines[fineId].transactionId in transactions then
      var tid := fines[fineId].transactionId;
      transactions[tid := transactions[tid].(penaltyPaid := true)]
    else transactions
  }

  /**
   * `UPDATE clearances SET status = ?, notes = ?, cleared_by = ? WHERE
   * user_id = ? AND semester_id = ?`: overwrites the one row for the key, if
   * there is one, and never inserts.
   */
  function OverrideClearance(
    clearances: map<(string, string), Clearance>, key: (string, string),
    status: string, notes: string, staffId: string): (r: map<(string, string), Clearance>)
    ensures r.Keys == clearances.Keys
    ensures key in clearances ==> r[key] == Clearance(status, notes, staffId)
    ensures forall k :: k in clearances && k != key ==> r[k] == clearances[k]
  {
    if key in clearances then clearances[key := Clearance(status, notes, staffId)] else clearances
  }

  /** Paying ignores the fine's prior status: a `paid`, `waived` or `pending` fine ends up the same. */
  lemma SettleIgnoresPriorStatus(fines: map<string, Fine>, fineId: string, now: int, s1: string, s2: string)
    requires fineId in fines
    ensures SettleFine(fines[fineId := fines[fineId].(status := s1)], fineId, now)
         == SettleFine(fines[fineId := fines[fineId].(status := s2)], fineId, now)
  {
  }

  /** The staff page's view of the three tables. */
  class PenaltyDesk {
    var fines: map<string, Fine>
    var transactions: map<string, Transaction>
    var clearances: map<(string, string), Clearance>

    /** Every row is filed under its own id. */
    ghost predicate Valid()
      reads this
    {
      && (forall id :: id in fines ==> fines[id].id == id)
      && (forall id :: id in transactions ==> transactions[id].id == id)
    }

    constructor (fines0: map<string, Fine>, transactions0: map<string, Transaction>,
                 clearances0: map<(string, string), Clearance>)
      requires forall id :: id in fines0 ==> fines0[id].id == id
      requires forall id :: id in transactions0 ==> transactions0[id].id == id
      ensures Valid()
      ensures fines == fines0 && transactions == transactions0 && clearances == clearances0
    {
      fines, transactions, clearances := fines0, transactions0, clearances0;
    }

    /**
     * The `pay_penalty` handler. When admitted, the fine update and the
     * transaction update run in one database transaction: both take effect,
     * or, on an exception, both are rolled back. `amountPaid` is only the
     * gate: it is never stored and never changes a fine's amount. A fine id
     * that matches no row updates nothing and still reports success.
     */
    method PayPenalty(action: string, fineId: string, amountPaid: int, now: int, failure: Option<string>)
      returns (reply: PayReply)
      requires Valid()
      modifies this
      ensures Valid()
      ensures clearances == old(clearances)
      ensures !PaymentAdmitted(action, fineId, amountPaid) ==>
        reply == PayIgnored && fines == old(fines) && transactions == old(transactions)
      ensures PaymentAdmitted(action, fineId, amountPaid) && failure.Some? ==>
        && reply == PayFailed("Error processing payment: " + failure.value)
        && fines == old(fines) && transactions == old(transactions)
      ensures PaymentAdmitted(action, fineId, amountPaid) && failure.None? ==>
        && reply == PayRecorded
        && fines == SettleFine(old(fines), fineId, now)
        && transactions == FlagPenaltyPaid(old(transactions), old(fines), fineId)
      // Read as `WHERE id = ?`: the rows whose id column is the fine id are
      // paid now; every other row is as it was.
      ensures PaymentAdmitted(action, fineId, amountPaid) && failure.None? ==>
        && (forall id :: id in fines && fines[id].id == fineId ==>
              fines[id].status == "paid" && fines[id].paidAt == Some(now))
        && (forall id :: id in fines && fines[id].id != fineId ==> fines[id] == old(fines)[id])
    {
      if PaymentAdmitted(action, fineId, amountPaid) {
        var savedFines, savedTransactions := fines, transactions;
        fines := SettleFine(fines, fineId, now);
        transactions := FlagPenaltyPaid(transactions, fines, fineId);
        if failure.Some? {
          fines, transactions := savedFines, savedTransactions;
          reply := PayFailed("Error processing payment: " + failure.value);
        } else {
          reply := PayRecorded;
        }
      } else {
        reply := PayIgnored;
      }
    }

    /**
     * The `update_clearance` handler: overwrites status, notes and the acting
     * staff id on the row for (user, current semester). A key with no row
     * changes nothing and still reports success.
     */
    method UpdateClearance(
      action: string, userId: string, status: string, notes: string,
      staffId: string, semesterId: string, failure: Option<string>)
      returns (reply: ClearanceReply)
      requires Valid()
      modifies this
      ensures Valid()
      ensures fines == old(fines) && transactions == old(transactions)
      ensures !ClearanceAdmitted(action, userId, status) ==>
        reply == ClearanceIgnored && clearances == old(clearances)
      ensures ClearanceAdmitted(action, userId, status) && failure.Some? ==>
        reply == ClearanceFailed("Error updating clearance: " + failure.value) && clearances == old(clearances)
      ensures ClearanceAdmitted(action, userId, status) && failure.None? ==>
        && reply == ClearanceUpdated
        && clearances == OverrideClearance(old(clearances), (userId, semesterId), status, notes, staffId)
    {
      if ClearanceAdmitted(action, userId, status) {
        if failure.Some? {
          reply := ClearanceFailed("Error updating clearance: " + failure.value);
        } else {
          clearances := OverrideClearance(clearances, (userId, semesterId), status, notes, staffId);
          reply := ClearanceUpdated;
        }
      } else {
        reply := ClearanceIgnored;
      }
    }
  }

  /** The three figures at the top of the page. */
  datatype FineStats = FineStats(total: int, paid: int, pending: int)

  predicate IsPaid(f: Fine)
  {
    f.status == "paid"
  }

  predicate IsUnpaid(f: Fine)
  {
    f.status != "paid"
  }

  /**
   * The statistics: total is the sum of every fine, paid the sum of the
   * `paid` ones, pending the difference. So pending is the sum of every fine
   * that is not `paid`, waived fines included, and paid + pending = total.
   */
  function Statistics(fines: seq<Fine>): (s: FineStats)
    ensures s.total == SumAmounts(fines)
    ensures s.paid == SumAmounts(Filter(fines, IsPaid))
    ensures s.pending == SumAmounts(Filter(fines, IsUnpaid))
    ensures s.paid + s.pending == s.total
  {
    var total := SumAmounts(fines);
    var paid := SumAmounts(Filter(fines, IsPaid));
    SumPartition(fines, IsPaid, IsUnpaid);
    FineStats(total, paid, total - paid)
  }

  /** With no negative amount, each figure lies between 0 and the total. */
  lemma {:induction false} StatisticsBounded(fines: seq<Fine>)
    requires forall k :: 0 <= k < |fines| ==> fines[k].amount >= 0
    ensures 0 <= Statistics(fines).paid <= Statistics(fines).total
    ensures 0 <= Statistics(fines).pending <= Statistics(fines).total
  {
    var paid, unpaid := Filter(fines, IsPaid), Filter(fines, IsUnpaid);
    forall k | 0 <= k < |paid| ensures paid[k].amount >= 0 {
      assert paid[k] in multiset(paid);
    }
    forall k | 0 <= k < |unpaid| ensures unpaid[k].amount >= 0 {
      assert unpaid[k] in multiset(unpaid);
    }
    SumNonNegative(paid);
    SumNonNegative(unpaid);
  }

  /** The figures of two lists put together are the sums of their figures. */
  lemma {:induction false} StatisticsAppend(a: seq<Fine>, b: seq<Fine>)
    ensures Statistics(a + b).total == Statistics(a).total + Statistics(b).total
    ensures Statistics(a + b).paid == Statistics(a).paid + Statistics(b).paid
    ensures Statistics(a + b).pending == Statistics(a).pending + Statistics(b).pending
  {
    SumAppend(a, b);
    FilterAppend(a, b, IsPaid);
    SumAppend(Filter(a, IsPaid), Filter(b, IsPaid));
  }

  /** The figures of a one-fine list. */
  lemma {:induction false} StatisticsSingle(f: Fine)
    ensures Statistics([f]).total == f.amount
    ensures Statistics([f]).paid == if IsPaid(f) then f.amount else 0
  {
    assert [f][..0] == [] && [f][1..] == [];
    assert Filter([f], IsPaid) == if IsPaid(f) then [f] else [];
  }

  /** A waived fine counts as pending, not as paid. */
  lemma {:induction false} WaivedCountsAsPending(f: Fine)
    requires f.status == "waived"
    ensures Statistics([f]).pending == f.amount
    ensures Statistics([f]).paid == 0
  {
    StatisticsSingle(f);
  }

  /** The figures of a list with one fine in the middle, from the figures of its parts. */
  lemma {:induction false} StatisticsSplice(before: seq<Fine>, x: Fine, after: seq<Fine>)
    ensures Statistics(before + [x] + after).total
         == Statistics(before).total + x.amount + Statistics(after).total
    ensures Statistics(before + [x] + after).paid
         == Statistics(before).paid + (if IsPaid(x) then x.amount else 0) + Statistics(after).paid
  {
    StatisticsAppend(before + [x], after);
    StatisticsAppend(before, [x]);
    StatisticsSingle(x);
  }

  /**
   * Paying one listed fine that was not yet `paid` moves its amount from
   * pending to paid and leaves the total alone; paying a `paid` fine again
   * changes no figure.
   */
  lemma {:induction false} PaymentMovesAmount(before: seq<Fine>, f: Fine, after: seq<Fine>, now: int)
    ensures var s0 := Statistics(before + [f] + after);
      var s1 := Statistics(before + [f.(status := "paid", paidAt := Some(now))] + after);
      && s1.total == s0.total
      && s1.paid == s0.paid + (if IsPaid(f) then 0 else f.amount)
      && s1.pending == s0.pending - (if IsPaid(f) then 0 else f.amount)
  {
    StatisticsSplice(before, f, after);
    StatisticsSplice(before, f.(status := "paid", paidAt := Some(now)), after);
  }

  /** The Pay button is offered only on `pending` fines; the handler itself does not check. */
  predicate PayButtonShown(f: Fine)
  {
    f.status == "pending"
  }

  /** Once a fine is paid its row no longer offers the Pay button. */
  lemma PaidFineLosesPayButton(fines: map<string, Fine>, fineId: string, now: int)
    requires fineId in fines
    ensures !PayButtonShown(SettleFine(fines, fineId, now)[fineId])
  {
  }
}

=== FILE: php.dfy ===
/**
 * Server-side request vocabulary shared by the page scripts: the POST body,
 * PHP's `empty` on a posted string, and the `['success' => …]` arrays that
 * the (unmodelled) manager classes return.
 */
module Php {

  /** A POST body (`$_POST`): field name to submitted text. */
  type Post = map<string, string>

  /** `$_POST[key] ?? default`: the posted text, or the default when the field was not sent. */
  function Field(post: Post, key: string, default: string): string
  {
    if key in post then post[key] else default
  }

  /** `if ($_POST)`: a POST array is truthy exactly when it has at least one field. */
  predicate Submitted(post: Post)
  {
    |post| > 0
  }

  /**
   * PHP `empty($s)` for a string: true for "" and for "0", false for every
   * other string (" " and "0.0" are not empty).
   */
  predicate Empty(s: string)
  {
    s == "" || s == "0"
  }

  /** `ucfirst($s)`: the first character upper-cased when it is an ASCII letter. */
  function Ucfirst(s: string): (r: string)
    ensures |r| == |s|
    ensures s != [] ==> r[1..] == s[1..] && !('a' <= r[0] <= 'z')
    ensures s != [] && 'a' <= s[0] <= 'z' ==> r[0] as int + 32 == s[0] as int
    ensures s == [] || !('a' <= s[0] <= 'z') ==> r == s
  {
    if s != [] && 'a' <= s[0] <= 'z' then [(s[0] as int - 32) as char] + s[1..] else s
  }

  /** Decimal digits of `n`, as string interpolation of an integer prints it. */
  function NatToString(n: nat): (r: string)
    ensures |r| > 0
    ensures forall k :: 0 <= k < |r| ==> '0' <= r[k] <= '9'
    decreases n
  {
    var digit := ['0' + (n % 10) as char];
    if n < 10 then digit else NatToString(n / 10) + digit
  }

  /**
   * What a manager method returns: `success`, plus `message` on success or
   * `errors['general']` on failure.
   */
  datatype CallResult = CallResult(success: bool, message: string, general: string)

  /** The one-line notice a page shows after handling a POST. */
  datatype Flash = NoFlash | Success(text: string) | Failure(text: string)

  /**
   * The pages' common tail: `$success_message = $result['message']` on
   * success, `$error_message = $result['errors']['general']` otherwise.
   */
  function Relay(result: CallResult): (f: Flash)
    ensures f.Success? <==> result.success
    ensures f.Success? ==> f.text == result.message
    ensures f.Failure? ==> f.text == result.general
    ensures !result.success ==> f == Failure(result.general)
  {
    if result.success then Success(result.message) else Failure(result.general)
  }
}

=== FILE: registration.dfy ===
/**
 * The registration page (register.php): the server-side POST handler, which
 * forwards the form to `Authentication::register`, and the client-side
 * scripts: `validateForm`, the e-mail pattern, the password-confirmation
 * listeners and the role listener that shows or hides the student-ID field.
 */
module Registration {
  import opened Php
  import opened Js

  // ---------------------------------------------------------------------
  // The e-mail pattern /^[^\s@]+@[^\s@]+\.[^\s@]+$/
  // ---------------------------------------------------------------------

  /** Every character is in the class `[^\s@]`. */
  predicate Plain(s: string)
  {
    forall k :: 0 <= k < |s| ==> !IsWhitespace(s[k]) && s[k] != '@'
  }

  /** The index of the first '@', or `|s|` when there is none. */
  function FirstAt(s: string): (i: nat)
    ensures i <= |s|
    ensures i < |s| ==> s[i] == '@'
    ensures forall k :: 0 <= k < i ==> s[k] != '@'
  {
    if s == [] || s[0] == '@' then 0 else 1 + FirstAt(s[1..])
  }

  /**
   * The pattern, decided directly: a non-empty plain local part up to the
   * first '@', and after it a plain domain with a '.' that has at least one
   * character on each side.
   */
  predicate EmailMatches(s: string)
  {
    var i := FirstAt(s);
    0 < i < |s| && Plain(s[..i]) &&
    var d := s[i + 1..];
    Plain(d) && |d| >= 3 && Includes(d[1..|d| - 1], ".")
  }

  /** `s` splits as the pattern's three `[^\s@]+` groups around '@' and '.'. */
  ghost predicate EmailParts(s: string, local: string, host: string, tld: string)
  {
    && s == local + "@" + host + "." + tld
    && local != [] && host != [] && tld != []
    && Plain(local) && Plain(host) && Plain(tld)
  }

  /** A slice of a plain string is plain. */
  lemma PlainSlice(s: string, i: nat, j: nat)
    requires Plain(s) && i <= j <= |s|
    ensures Plain(s[i..j])
  {
    assert forall k :: 0 <= k < j - i ==> s[i..j][k] == s[i + k];
  }

  /** A plain domain with a '.' at index `j + 1` splits around it into two plain groups. */
  lemma SplitDomain(d: string, j: nat)
    requires Plain(d) && j + 2 < |d| && d[j + 1] == '.'
    ensures d == d[..j + 1] + "." + d[j + 2..]
    ensures Plain(d[..j + 1]) && Plain(d[j + 2..])
  {
    PlainSlice(d, 0, j + 1);
    PlainSlice(d, j + 2, |d|);
  }

  /** An accepted string splits into the pattern's three groups. */
  lemma {:induction false} MatchGivesParts(s: string)
    requires EmailMatches(s)
    ensures exists local, host, tld :: EmailParts(s, local, host, tld)
  {
    var i := FirstAt(s);
    var d := s[i + 1..];
    var m := d[1..|d| - 1];
    assert Includes(m, ".");
    IncludesIffOccurs(m, ".");
    var j :| OccursAt(m, ".", j);
    assert d[j + 1] == m[j];
    SplitDomain(d, j);
    assert s == s[..i] + "@" + d;
    assert EmailParts(s, s[..i], d[..j + 1], d[j + 2..]);
  }

  /** In a string made of the three groups, the first '@' ends the local part. */
  lemma FirstAtOfParts(s: string, local: string, host: string, tld: string)
    requires EmailParts(s, local, host, tld)
    ensures FirstAt(s) == |local|
    ensures s[..|local|] == local && s[|local| + 1..] == host + "." + tld
  {
    assert s[|local|] == '@';
    assert forall k :: 0 <= k < |local| ==> s[k] == local[k];
  }

  /** The domain part of a split string is plain and has an inner '.'. */
  lemma DomainOfParts(host: string, tld: string)
    requires host != [] && tld != [] && Plain(host) && Plain(tld)
    ensures var d := host + "." + tld;
      Plain(d) && |d| >= 3 && Includes(d[1..|d| - 1], ".")
  {
    var d := host + "." + tld;
    forall k | 0 <= k < |d| ensures !IsWhitespace(d[k]) && d[k] != '@' {
      if k < |host| {
        assert d[k] == host[k];
      } else if k > |host| {
        assert d[k] == tld[k - |host| - 1];
      }
    }
    var m := d[1..|d| - 1];
    assert m[|host| - 1] == d[|host|] == '.';
    assert m[|host| - 1..|host|] == ".";
    assert OccursAt(m, ".", |host| - 1);
    IncludesIffOccurs(m, ".");
  }

  /** The direct decision procedure accepts exactly the strings the regular expression matches. */
  lemma {:induction false} EmailMatchesPattern(s: string)
    ensures EmailMatches(s) <==> exists local, host, tld :: EmailParts(s, local, host, tld)
  {
    if EmailMatches(s) {
      MatchGivesParts(s);
    }
    if exists local, host, tld :: EmailParts(s, local, host, tld) {
      var local, host, tld :| EmailParts(s, local, host, tld);
      FirstAtOfParts(s, local, host, tld);
      DomainOfParts(host, tld);
    }
  }

  /** The pattern has no room for a second '@' or for a space. */
  lemma EmailHasOneAtNoSpace(s: string, k: nat)
    requires EmailMatches(s) && k < |s|
    ensures !IsWhitespace(s[k])
    ensures s[k] == '@' <==> k == FirstAt(s)
  {
    var i := FirstAt(s);
    var local, domain := s[..i], s[i + 1..];
    assert Plain(local) && Plain(domain);
    if k < i {
      assert s[k] == local[k];
      assert !IsWhitespace(local[k]) && local[k] != '@';
    } else if k > i {
      assert s[k] == domain[k - i - 1];
      assert !IsWhitespace(domain[k - i - 1]) && domain[k - i - 1] != '@';
    }
  }

  // ---------------------------------------------------------------------
  // validateForm
  // ---------------------------------------------------------------------

  /** A field that can carry an error under it. */
  datatype FormField = PasswordField | ConfirmField | StudentIdField | EmailField

  datatype FormError = FormError(field: FormField, message: string)

  const PasswordTooShort: string := "Password must be at least 6 characters long"
  const PasswordsDiffer: string := "Passwords do not match"
  const StudentIdMissing: string := "Student ID is required for students"
  const EmailInvalid: string := "Please enter a valid email address"

  /** One run of `validateForm`: the errors shown, the returned flag, the loading state. */
  datatype FormCheck = FormCheck(errors: seq<FormError>, valid: bool, loading: bool)

  /**
   * The errors of one `validateForm` run, from the outcome of its four
   * checks, in the order the script makes them: each failing check adds its
   * own error, and none stops the others.
   */
  function Errors(shortPassword: bool, mismatch: bool, missingId: bool, badEmail: bool): (r: seq<FormError>)
    ensures r == [] <==> !shortPassword && !mismatch && !missingId && !badEmail
    ensures FormError(PasswordField, PasswordTooShort) in r <==> shortPassword
    ensures FormError(ConfirmField, PasswordsDiffer) in r <==> mismatch
    ensures FormError(StudentIdField, StudentIdMissing) in r <==> missingId
    ensures FormError(EmailField, EmailInvalid) in r <==> badEmail
    ensures forall x :: x in r ==> x in AllFormErrors
    ensures |r| == Count(shortPassword) + Count(mismatch) + Count(missingId) + Count(badEmail)
  {
    var p := if shortPassword then [FormError(PasswordField, PasswordTooShort)] else [];
    var f := if mismatch then [FormError(ConfirmField, PasswordsDiffer)] else [];
    var i := if missingId then [FormError(StudentIdField, StudentIdMissing)] else [];
    var e := if badEmail then [FormError(EmailField, EmailInvalid)] else [];
    InJoined(p, f, i, e, FormError(PasswordField, PasswordTooShort));
    InJoined(p, f, i, e, FormError(ConfirmField, PasswordsDiffer));
    InJoined(p, f, i, e, FormError(StudentIdField, StudentIdMissing));
    InJoined(p, f, i, e, FormError(EmailField, EmailInvalid));
    p + f + i + e
  }

  /** The four errors the script can show, one per check. */
  const AllFormErrors: seq<FormError> := [
    FormError(PasswordField, PasswordTooShort), FormError(ConfirmField, PasswordsDiffer),
    FormError(StudentIdField, StudentIdMissing), FormError(EmailField, EmailInvalid)]

  /** 1 for a failing check, 0 for a passing one. */
  function Count(failed: bool): nat
  {
    if failed then 1 else 0
  }

  /** Membership in the four lists joined together. */
  lemma InJoined(a: seq<FormError>, b: seq<FormError>, c: seq<FormError>, d: seq<FormError>, x: FormError)
    ensures x in a + b + c + d <==> x in a || x in b || x in c || x in d
  {
  }

  /**
   * Every check runs (none short-circuits the others), each failing field
   * gets its own error, and the form is valid, and the button enters its
   * loading state, exactly when no check fails.
   */
  function ValidateForm(password: string, confirm: string, role: string, studentId: string, email: string)
    : (c: FormCheck)
    ensures c.valid <==> c.errors == []
    ensures c.loading == c.valid
    ensures c.valid <==>
      && Utf16Length(password) >= 6
      && password == confirm
      && (role == "student" ==> !Blank(studentId))
      && EmailMatches(email)
    ensures FormError(PasswordField, PasswordTooShort) in c.errors <==> Utf16Length(password) < 6
    ensures FormError(ConfirmField, PasswordsDiffer) in c.errors <==> password != confirm
    ensures FormError(StudentIdField, StudentIdMissing) in c.errors <==> role == "student" && Blank(studentId)
    ensures FormError(EmailField, EmailInvalid) in c.errors <==> !EmailMatches(email)
    ensures forall x :: x in c.errors ==> x in AllFormErrors
    ensures |c.errors| == Count(Utf16Length(password) < 6) + Count(password != confirm)
                        + Count(role == "student" && Blank(studentId)) + Count(!EmailMatches(email))
  {
    var errors := Errors(
      Utf16Length(password) < 6, password != confirm,
      role == "student" && Trim(studentId) == "", !EmailMatches(email));
    FormCheck(errors, errors == [], errors == [])
  }

  /** For any role but `student` the student-ID field plays no part in validation. */
  lemma StudentIdIrrelevantForOtherRoles(
    password: string, confirm: string, role: string, id1: string, id2: string, email: string)
    requires role != "student"
    ensures ValidateForm(password, confirm, role, id1, email) == ValidateForm(password, confirm, role, id2, email)
  {
  }

  /**
   * The length check counts UTF-16 units, at most two per character, so a
   * password of fewer than three characters never passes.
   */
  lemma ShortPasswordNeverValid(password: string, confirm: string, role: string, studentId: string, email: string)
    requires |password| < 3
    ensures !ValidateForm(password, confirm, role, studentId, email).valid
  {
  }

  // ---------------------------------------------------------------------
  // The server-side handler and the re-rendered form
  // ---------------------------------------------------------------------

  /** The roles the select offers (besides the "Select your role" placeholder). */
  const OfferedRoles: seq<string> := ["student", "teacher"]

  /** The select comes back with a posted role selected only when it is an offered one. */
  function SelectedRole(post: Post): (r: string)
    ensures r == "" || r in OfferedRoles
    ensures r in OfferedRoles <==> Field(post, "role", "") in OfferedRoles
    ensures Field(post, "role", "") in OfferedRoles ==> r == Field(post, "role", "")
  {
    var posted := Field(post, "role", "");
    if posted in OfferedRoles then posted else ""
  }

  /** The POST data the form is re-rendered from: cleared after a successful registration. */
  function RenderedPost(post: Post, result: CallResult): (p: Post)
    ensures result.success ==> p == map[]
    ensures !result.success ==> p == post
  {
    if Submitted(post) && result.success then map[] else post
  }

  /** After a successful registration the form comes back with no role and no student ID. */
  lemma SuccessClearsForm(post: Post, result: CallResult)
    requires result.success
    ensures SelectedRole(RenderedPost(post, result)) == ""
    ensures Field(RenderedPost(post, result), "student_id", "") == ""
  {
  }

  /** The text `setCustomValidity` receives from the confirmation listener. */
  function ConfirmMessage(password: string, confirm: string): (m: string)
    ensures m == "" <==> password == confirm
  {
    if password != confirm then PasswordsDiffer else ""
  }

  // ---------------------------------------------------------------------
  // The live form
  // ---------------------------------------------------------------------

  /**
   * The form state the page scripts change: the role select, the student-ID
   * field's visibility, `required` flag and value, the two password fields
   * and the confirmation field's custom validity message.
   */
  class RegisterForm {
    var role: string
    var studentIdShown: bool
    var studentIdRequired: bool
    var studentId: string
    var password: string
    var confirm: string
    var confirmValidity: string

    /**
     * The student-ID field is shown exactly when it is required and exactly
     * when `student` is selected; a non-empty confirmation carries the
     * mismatch message exactly when it differs from the password.
     */
    ghost predicate Valid()
      reads this
    {
      && studentIdShown == studentIdRequired
      && (studentIdShown <==> role == "student")
      && (confirm != "" ==> confirmValidity == ConfirmMessage(password, confirm))
    }

    /**
     * The page as rendered from `post` and set up by the `DOMContentLoaded`
     * handler: the posted role re-selected when offered, the posted student
     * ID filled in, the field shown and required when the role is `student`,
     * and empty password fields.
     */
    constructor (post: Post)
      ensures Valid()
      ensures role == SelectedRole(post) && studentId == Field(post, "student_id", "")
      ensures studentIdShown <==> SelectedRole(post) == "student"
      ensures password == "" && confirm == "" && confirmValidity == ""
    {
      role := SelectedRole(post);
      studentId := Field(post, "student_id", "");
      var student := SelectedRole(post) == "student";
      studentIdShown := student;
      studentIdRequired := student;
      password := "";
      confirm := "";
      confirmValidity := "";
    }

    /**
     * The role select's `change` listener: `student` shows the field and
     * makes it required, keeping its value; any other choice hides it,
     * drops the requirement and clears it.
     */
    method ChooseRole(r: string)
      requires Valid()
      modifies this
      ensures Valid()
      ensures role == r
      ensures studentIdShown == (r == "student") && studentIdRequired == (r == "student")
      ensures studentId == if r == "student" then old(studentId) else ""
      ensures password == old(password) && confirm == old(confirm) && confirmValidity == old(confirmValidity)
    {
      role := r;
      if r == "student" {
        studentIdShown := true;
        studentIdRequired := true;
      } else {
        studentIdShown := false;
        studentIdRequired := false;
        studentId := "";
      }
    }

    /** The confirmation field's `input` listener. */
    method TypeConfirm(v: string)
      requires Valid()
      modifies this
      ensures Valid()
      ensures confirm == v && confirmValidity == ConfirmMessage(password, v)
      ensures role == old(role) && studentIdShown == old(studentIdShown) && studentIdRequired == old(studentIdRequired)
      ensures studentId == old(studentId) && password == old(password)
    {
      confirm := v;
      confirmValidity := ConfirmMessage(password, v);
    }

    /** The password field's `input` listener: re-checks the confirmation only when it is non-empty. */
    method TypePassword(v: string)
      requires Valid()
      modifies this
      ensures Valid()
      ensures password == v && confirm == old(confirm)
      ensures confirmValidity == if confirm != "" then ConfirmMessage(v, confirm) else old(confirmValidity)
      ensures role == old(role) && studentIdShown == old(studentIdShown) && studentIdRequired == old(studentIdRequired)
      ensures studentId == old(studentId)
    {
      password := v;
      if confirm != "" {
        confirmValidity := ConfirmMessage(v, confirm);
      }
    }

    /** `validateForm` on the current field values. */
    function Check(email: string): FormCheck
      reads this
    {
      ValidateForm(password, confirm, role, studentId, email)
    }
  }

  /**
   * A hidden student-ID field never blocks submission, and a shown one
   * blocks it exactly when it is blank.
   */
  lemma HiddenStudentIdNeverBlocks(form: RegisterForm, email: string)
    requires form.Valid()
    ensures FormError(StudentIdField, StudentIdMissing) in form.Check(email).errors
        <==> form.studentIdShown && Blank(form.studentId)
  {
  }
}

=== FILE: teacher_fines.dfy ===
/**
 * A teacher's fines page (teacher/fines.php): the total of the outstanding
 * fines, accumulated by a `foreach`, and which parts of the page show.
 *
 * The list itself comes from `PenaltyManager::getUserOutstandingFines`,
 * which is not part of this model; it is the method's input.
 */
module TeacherFines {
  import opened Ledger
  import Penalties

  /** The `foreach` that adds every fine's amount to `$total_outstanding`. */
  method TotalOutstanding(fines: seq<Fine>) returns (total: int)
    ensures total == SumAmounts(fines)
  {
    total := 0;
    for i := 0 to |fines|
      invariant total == SumAmounts(fines[..i])
    {
      assert fines[..i + 1][..i] == fines[..i];
      total := total + fines[i].amount;
    }
    assert fines[..|fines|] == fines;
  }

  /**
   * The teacher's total agrees with the staff penalty page: for a list of
   * pending fines, it is the "pending" figure of that page's statistics.
   */
  lemma {:induction false} TotalIsPendingFigure(fines: seq<Fine>)
    requires forall k :: 0 <= k < |fines| ==> fines[k].status == "pending"
    ensures Penalties.Statistics(fines).pending == SumAmounts(fines)
    ensures Penalties.Statistics(fines).paid == 0
  {
    var paid := Filter(fines, Penalties.IsPaid);
    assert paid == [];
  }

  /** What the page shows around the table. */
  datatype FinesView = FinesView(count: nat, emptyRow: bool, paymentInfo: bool)

  /** The "n fine(s)" counter, the "No outstanding fines!" row, and the payment box. */
  function View(fines: seq<Fine>): (v: FinesView)
    ensures v.count == |fines|
    ensures v.emptyRow <==> fines == []
    ensures v.paymentInfo <==> !v.emptyRow
  {
    FinesView(|fines|, fines == [], fines != [])
  }

  /**
   * With every fine for a positive amount, the payment box shows exactly
   * when the loop's total is positive, and the "No outstanding fines!" row
   * exactly when it is zero.
   */
  lemma {:induction false} PaymentBoxIffOwing(fines: seq<Fine>)
    requires forall k :: 0 <= k < |fines| ==> fines[k].amount > 0
    ensures View(fines).paymentInfo <==> SumAmounts(fines) > 0
    ensures View(fines).emptyRow <==> SumAmounts(fines) == 0
  {
    if fines != [] {
      var init := fines[..|fines| - 1];
      assert forall k :: 0 <= k < |init| ==> init[k].amount >= 0 by {
        forall k | 0 <= k < |init| ensures init[k].amount >= 0 {
          assert init[k] == fines[k];
        }
      }
      SumNonNegative(init);
    }
  }
}
